=== FILE: README.md ===
# Job tracker client logic in Dafny

This project models the decision logic of a React job-application tracker and proves
properties of it. The tracker's client keeps two stores. The job store holds the user's
job applications, keyed by the server's `_id`, plus loading, error and statistics fields.
The session store holds the signed-in user and token. Around the stores sit:

- a credential layer over `localStorage` (two keys, `jobTrackerToken` and `jobTrackerUser`);
- an HTTP layer that adds the bearer token and classifies failed responses by status;
- the hostname-based choice of backend URL;
- the route guards;
- the add and edit forms;
- the job list (search, status filter, sort) and the dashboard's five most recent jobs.

Everything is written as pure functions over immutable datatypes. A network call is not
performed. Its outcome is a parameter: `Reply.Resolved(body)` or `Reply.Rejected(error)`,
and the error arrives as the response interceptor left it. Browser facilities become
function parameters:

- `toLowerCase` is a fold;
- `localeCompare` is an order;
- `new Date(...).toISOString()` is a conversion that may fail;
- `JSON.stringify`/`JSON.parse` are a codec with a validity predicate.

Module layout: `Values` (JavaScript values: optional values, errors, replies, truthiness,
`||`, object spread), `Text` (`trim`, `includes`, `split(sep)[0]`), `Seqs` (`filter` and the
stable `sort`), `Jobs` (the job record), `JobReducer` and `JobContext` (the job store),
`AuthReducer`, `AuthService`, `AuthContext` and `Api` (session and credentials),
`Environment`, `Routes`, `JobForm`, `AddJob`, `EditJob`, `JobList`, `Dashboard`.

## Model

| member | source | states |
|---|---|---|
| Values.OrElse | src/pages/EditJob.js:41-49 | JavaScript `or` with a string fallback: the value when it is present and non-empty, the fallback otherwise |
| Values.Spread | src/context/AuthContext.js:45-49 | object spread: the keys of both objects, the overlay's value wins, the base's kept elsewhere; spreading null adds nothing |
| Text.Trim | src/pages/AddJob.js:34-63 | `trim()` returns a slice of the input with no whitespace at either end, having removed only whitespace; it is empty exactly when the input is all whitespace |
| Text.TrimIdempotent | src/pages/AddJob.js:59-63 | trimming twice is trimming once |
| Text.TrimTrimmed | src/pages/EditJob.js:101-105 | a string without surrounding whitespace is its own trim |
| Text.IncludesIff | src/config/environment.js:6-8 | `includes` holds exactly when the substring occurs at some index |
| Text.IncludesTransitive | src/config/environment.js:6-8 | a string containing a string that contains `c` contains `c` |
| Text.BeforeFirst | src/pages/AddJob.js:17 | `split('T')[0]` is a prefix of the input with no 'T', and stops just before the first 'T' if there is one |
| Seqs.Filter | src/context/JobContext.js:39 | `filter` keeps only passing elements, keeps every passing element, and invents nothing (sub-multiset) |
| Seqs.FilterAppend | src/context/JobContext.js:24 | filtering a concatenation is concatenating the filtered parts |
| Seqs.FilterKeepsAll | src/context/JobContext.js:39 | a filter that every element passes returns the input |
| Seqs.FilterPartition | src/context/JobContext.js:39 | filtering by a predicate and by its negation splits the input's length |
| Seqs.FilterSubsequence | src/context/JobContext.js:39 | `filter` only drops elements: what it keeps is a subsequence of its input, in the original order |
| Seqs.FilterMultiplicity | src/context/JobContext.js:188-192 | each passing value keeps all its occurrences; failing values keep none |
| Seqs.PermutationFilterLength | src/context/JobContext.js:186-193 | rearranging a sequence does not change how many elements pass a filter |
| Seqs.Sort | src/pages/JobList.js:52-63 | `sort` returns a permutation of its input |
| Seqs.SortSorted | src/pages/JobList.js:52-63 | with a total, transitive comparator the sorted output is ordered |
| Seqs.SortAllEqual | src/pages/JobList.js:62 | a comparator that returns 0 for every pair leaves the order unchanged |
| Seqs.SortStable | src/pages/JobList.js:52-63 | the sort is stable: for a transitive comparator, the elements it ranks equal to any given one appear in the output exactly in their input order |
| Seqs.InsertKeepsClasses | src/pages/JobList.js:52-63 | inserting one element puts it at the front of its class of equal elements and leaves every class's order unchanged |
| Jobs.SafeJobs | src/pages/JobList.js:29-31 | an array is used as it is; any other value counts as the empty list |
| JobReducer.Reduce | src/context/JobContext.js:13-47 | SET_LOADING, SET_ERROR, SET_JOBS and SET_STATS change only their own field; ADD_JOB appends the payload after all earlier records; UPDATE_JOB keeps length and order and replaces exactly the records with the payload's `_id`; DELETE_JOB keeps exactly the records with another `_id`, each as often as it occurred and in the original order, and changes nothing when none matches; a non-array `jobs` counts as empty; unknown actions are the identity |
| JobReducer.ReplaceById | src/context/JobContext.js:30-32 | the map in UPDATE_JOB keeps the length |
| JobReducer.DeleteFacts | src/context/JobContext.js:34-40 | the filter by a differing `_id` keeps no record with that `_id`, every other record with its multiplicity and in order, and the whole collection when nothing matches |
| JobReducer.FallbackStats | src/context/JobContext.js:186-193 | `total` is the number of jobs; each of the five counts is the number of jobs carrying that status; the five counts sum to at most `total`, and to exactly `total` when every status is one of the five; no jobs gives all zeros |
| JobReducer.StatusCountsPartition | src/context/JobContext.js:186-193 | the five status counts plus the count of unknown statuses equal the length |
| JobReducer.CountStatusIsMultiplicity | src/context/JobContext.js:188-192 | each count is the number of occurrences of that status among the jobs |
| JobReducer.GetStats | src/context/JobContext.js:162-197 | the server's statistics verbatim when present; otherwise counts over the jobs; all zeros for a non-array `jobs` |
| JobReducer.ServerStatsIgnoreJobs | src/context/JobContext.js:168-171 | with server statistics present, changing the jobs does not change `getStats` |
| JobReducer.Find | src/context/JobContext.js:155 | `find` by `_id` returns the first record with that `_id`, and nothing exactly when no record has it |
| JobReducer.GetJobById | src/context/JobContext.js:154-156 | throws exactly when `jobs` is not an array, otherwise returns `find` |
| JobReducer.GetJobsByStatus | src/context/JobContext.js:158-160 | throws exactly when `jobs` is not an array; otherwise returns only, and all, the records with that status |
| JobReducer.StatsMatchStatusLists | src/context/JobContext.js:158-160 | without server statistics each of the five status counts equals the length of that status list |
| JobContext.InitialFetch | src/context/JobContext.js:54-82 | the mount-time fetch: jobs (or `[]` when `data.jobs` is missing) then statistics; a failure of either sets `error` to its message; `loading` ends false; no session check, retry or 401 case |
| JobContext.AddJob | src/context/JobContext.js:84-109 | success appends the created record; failure keeps the jobs, sets `error` to the interceptor's message for a 429 (or the fixed text) and to `error.message` otherwise, and rethrows; `loading` ends false |
| JobContext.UpdateJob | src/context/JobContext.js:111-136 | a reply with `data.job` applies UPDATE_JOB; a reply without it raises "No job data received from update" and dispatches no UPDATE_JOB; a rejection sets `error` |
| JobContext.DeleteJob | src/context/JobContext.js:138-152 | a confirmed delete applies DELETE_JOB; a rejection keeps the jobs and sets `error` |
| JobContext.RefreshJobs | src/context/JobContext.js:204-238 | it fetches exactly when not loading and at least 2000 ms have passed; `loading` is false afterwards in every case, since the `finally` also runs on a skip; a skip changes nothing else; a fetch records `now` first, then replaces `jobs` and clears `stats` on success, or keeps `jobs` and sets `error` on failure |
| JobContext.RefreshDebounced | src/context/JobContext.js:214-219 | two refreshes less than 2000 ms apart fetch at most once, even when the first failed |
| JobContext.SkippedRefreshClearsGuard | src/context/JobContext.js:205-210 | a refresh skipped during a load clears `loading`, so the next call past the interval fetches |
| JobContext.InitialFetchAgreesWithRefresh | src/context/JobContext.js:54-82 | the mount-time fetch and a fetching refresh give the same collection for the same jobs reply, and the same state when it fails |
| JobContext.HasStatsAfterFetches | src/context/JobContext.js:200-202 | after the mount-time fetch `hasStats` reports whether the statistics body carried `data.stats`; after a successful refresh it is false and `getStats` counts the jobs |
| JobContext.JobsOrEmpty | src/context/JobContext.js:64 | `data.data?.jobs || []`: the field when present, otherwise an empty array |
| JobReducer.HasStats | src/context/JobContext.js:200-202 | `hasStats` holds exactly when `state.stats.data.stats` is present |
| JobContext.AddThenFind | src/context/JobContext.js:84-109 | a record added with a new `_id` is then found by `getJobById` |
| JobContext.DeleteUndoesFreshAdd | src/context/JobContext.js:21-40 | deleting a just-added record with a new `_id` restores the collection |
| JobContext.DeleteThenFind | src/context/JobContext.js:138-156 | after a confirmed delete no record has the `_id`, and the collection shrank by the number that had it |
| JobContext.DeleteIdempotent | src/context/JobContext.js:34-40 | deleting twice is deleting once |
| JobContext.UpdateIdempotentAndFound | src/context/JobContext.js:25-33 | updating twice is updating once; afterwards `getJobById` returns the payload exactly when some record had its `_id` |
| JobContext.AddJobCounts | src/context/JobContext.js:186-193 | adding a record raises the fallback total by one, the count of its own status by one, and leaves the other four status counts unchanged |
| JobContext.RateLimitedAdd | src/context/JobContext.js:99-101 | a rate-limited create, after the interceptor, shows "Too many requests" and keeps the collection |
| AuthReducer.Reduce | src/context/AuthContext.js:14-55 | AUTH_START sets `loading` and clears `error` only; AUTH_SUCCESS signs in with the payload's user and token; AUTH_FAILURE signs out with the payload as `error`; LOGOUT signs out with no error; UPDATE_USER merges the payload into `user` and changes nothing else; CLEAR_ERROR clears only `error`; unknown actions are the identity |
| AuthReducer.LogoutIsQuietFailure | src/context/AuthContext.js:27-44 | LOGOUT equals AUTH_FAILURE with a null error, and applying it twice equals applying it once |
| AuthReducer.InitialHasNoToken | src/context/AuthContext.js:6-12 | the initial state is signed out and holds no token |
| AuthReducer.ReducePreservesNoToken | src/context/AuthContext.js:14-55 | every action keeps "signed out implies no token" |
| AuthReducer.UserWithoutSession | src/context/AuthContext.js:45-49 | UPDATE_USER on the signed-out initial state leaves a user object while `isAuthenticated` stays false: having a user does not imply a session |
| AuthService.StoreCredentials | src/services/authService.js:8-11 | `login` and `register` write the token and the serialised user iff `data.token` is truthy, and otherwise leave storage untouched |
| AuthService.GetToken | src/services/authService.js:72-74 | the stored token when the key is present, otherwise null |
| AuthService.Login | src/services/authService.js:15-26 | a body with a truthy `data.token` leaves the browser authenticated with that token and a stored user; any other body stores nothing |
| AuthService.Register | src/services/authService.js:5-13 | the same storage effect as login: credentials only for a truthy `data.token` |
| AuthService.LoginRoundTrip | src/services/authService.js:19-22 | after a login with a token, `getToken`, `isAuthenticated` and `getCurrentUser` return what was stored |
| AuthService.Logout | src/services/authService.js:51-58 | removes exactly the two credential keys and keeps every other key |
| AuthService.LogoutForgets | src/services/authService.js:51-74 | after `logout` there is no token and no user; `logout` is idempotent |
| AuthService.IsAuthenticated | src/services/authService.js:61-63 | true iff a non-empty token is stored |
| AuthService.GetCurrentUser | src/services/authService.js:66-69 | an absent or empty stored user gives null; a stored user is parsed, and a parse failure throws |
| AuthService.UpdateProfile | src/services/authService.js:35-42 | stores the user key and keeps every other key |
| AuthService.UpdateProfileMerges | src/services/authService.js:38-40 | the stored user becomes the merge of the previous user with the response's user, response fields winning |
| AuthService.UpdateProfileFromEmpty | src/services/authService.js:38 | with no stored user the merge starts from `{}` |
| Api.BaseUrl | src/services/api.js:5 | the configured URL when it is set and non-empty, otherwise the local URL |
| Api.Authorize | src/services/api.js:13-24 | a request gains `Authorization: Bearer <token>` iff a non-empty token is stored; otherwise its headers are unchanged |
| Api.OnResponseError | src/services/api.js:27-57 | 429 and 503 set their user messages; a missing response sets the network message; 401 removes both credential keys and asks for the login page; other statuses change nothing; the error is always passed on |
| Api.UnauthorizedClearsCredentials | src/services/api.js:39-43 | after a 401 the next request carries no Authorization header |
| AuthContext.FailureMessage | src/context/AuthContext.js:121 | the body's `message`, else `error.message`, else the fixed fallback |
| AuthContext.CheckAuth | src/context/AuthContext.js:63-103 | missing token or user signs out; a good profile check signs in with `profile.user` and the stored token; a 401 clears credentials and signs out; any other error signs in with the stored user and token; an unreadable stored user signs out with its error; `loading` always ends false |
| AuthContext.Login | src/context/AuthContext.js:108-125 | success signs in with `data.user` and `data.token`; failure signs out with the selected message and rethrows, and a 401 has cleared both stored credential keys |
| AuthContext.Register | src/context/AuthContext.js:127-148 | `requiresVerification` leaves the session signed out with no error; otherwise it signs in with `data.user` and `data.token`; failure signs out with the selected message, and a 401 has cleared both stored credential keys |
| AuthContext.Logout | src/context/AuthContext.js:150-153 | clears the credentials, keeps other storage keys, and signs out with no error |
| AuthContext.UpdateProfile | src/context/AuthContext.js:155-165 | success merges the response's user into the session; a rejected request or unreadable stored JSON dispatches AUTH_FAILURE with the selected message for that error and rethrows it; a 401 has cleared both stored credential keys |
| AuthContext.StorageAfterRejection | src/services/api.js:39-43 | a rejected request leaves the storage without both credential keys on a 401, and unchanged otherwise |
| AuthContext.UnauthorizedRejectionClears | src/services/api.js:39-43 | a 401 rejection of login, register or a profile update leaves no token and no user stored, and every other key in place |
| AuthContext.ClearError | src/context/AuthContext.js:167-169 | clears only `error` |
| AuthContext.FailuresSignOut | src/context/AuthContext.js:120-123 | every rejected login, register or profile update leaves the session signed out with a non-empty error |
| AuthContext.RestoreAfterLogin | src/context/AuthContext.js:63-103 | after a login that stored a token, a later start-up check whose profile call fails restores the same user and token, except on a 401, which signs out and clears storage |
| AuthContext.LoginWithoutToken | src/context/AuthContext.js:115-118 | a login reply without a token still signs the session in, while storage stays without credentials |
| Environment.GetApiUrl | src/config/environment.js:4-29 | the result is always the Render URL, the local URL or the configured URL |
| Environment.VercelNamesSubsumed | src/config/environment.js:6-8 | the two longer Vercel checks are implied by the `vercel.app` check |
| Environment.ApiUrlByHost | src/config/environment.js:4-29 | `vercel.app` hosts get Render first; exactly `localhost` or `127.0.0.1` get the local URL; `netlify.app`, `github.io` and `custom-domain.com` hosts get Render; anything else gets the configured URL or the local URL |
| Environment.MakeConfig | src/config/environment.js:32-40 | `environment` is "development" exactly for `localhost`; `isLocal` holds exactly for the two loopback names |
| Environment.LoopbackAddressIsProduction | src/config/environment.js:34-35 | for `127.0.0.1`, `isLocal` holds but `environment` is "production" |
| Environment.ProductionHosts | src/config/environment.js:36-39 | `isProduction` holds exactly for hosts containing `vercel.app`, `netlify.app` or `github.io` |
| Environment.CustomDomainNotProduction | src/config/environment.js:20-25 | `custom-domain.com` gets the Render URL but is not counted as production |
| Routes.ProtectedRoute | src/App.js:20-32 | loading shows the placeholder; otherwise signed out redirects to `/login`, signed in shows the page |
| Routes.PublicRoute | src/App.js:35-47 | loading shows the placeholder; otherwise signed in redirects to `/`, signed out shows the page |
| Routes.ExactlyOneGuardOpen | src/App.js:20-47 | when not loading, exactly one of the two guards shows its page |
| Routes.BothWaitWhileLoading | src/App.js:23-25 | while loading, both guards show the placeholder whatever `isAuthenticated` says |
| JobForm.SetField | src/pages/AddJob.js:22-28 | `handleChange` sets the named field and leaves every other field as it was |
| JobForm.SetFieldLaws | src/pages/EditJob.js:62-68 | writing a field's own value back changes nothing; a second write to a field overrides the first |
| JobForm.SetFieldCommutes | src/pages/AddJob.js:22-28 | changes to two different fields commute |
| JobForm.Optional | src/pages/AddJob.js:59-63 | an optional field is sent iff it is not blank, and then as its trimmed text |
| JobForm.Submit | src/pages/AddJob.js:30-72 | blank title is rejected first, then blank company, then empty date; an unparsable date fails in the `try`; an accepted body has non-empty trimmed title and company, the selected status, the converted date, and each optional field present iff non-blank and then trimmed |
| JobForm.SubmitIgnoresSurroundingWhitespace | src/pages/EditJob.js:74-105 | trimming the form's text fields first gives the same alert, failure or body |
| AddJob.DefaultForm | src/pages/AddJob.js:10-20 | the initial form has status "applied", today's date (the ISO text up to its first 'T') and every other field empty |
| AddJob.HandleSubmit | src/pages/AddJob.js:30-72 | an invalid form alerts its message and sends nothing; a bad date alerts "Failed to add job. Please try again."; an accepted body is handed to `addJob` and the page goes to `/jobs` without waiting |
| AddJob.UntouchedFormAsksForTitle | src/pages/AddJob.js:10-37 | submitting the initial form alerts "Please enter a job title" and sends nothing |
| AddJob.FailedCreateStillNavigates | src/pages/AddJob.js:66-67 | a create that the server rejects still leaves for `/jobs` with no alert; the store keeps its jobs and records an error |
| AddJob.RequiredFieldsSuffice | src/pages/AddJob.js:10-63 | filling in title and company on the initial form sends them trimmed with status "applied", today's date converted, and none of the five optional fields |
| EditJob.DateInput | src/pages/EditJob.js:47 | a stored date becomes the ISO text up to its first 'T' (all of it when there is none); no date becomes "" |
| EditJob.Prefill | src/pages/EditJob.js:40-50 | each text field is non-empty exactly when the record's value is, and then equals it; a missing status reads "applied" |
| EditJob.LoadJob | src/pages/EditJob.js:28-60 | a non-array store shows "Failed to load job data"; an unknown id shows "Job not found"; both leave the form unpopulated; otherwise the form is pre-filled from the first record with that id |
| EditJob.DetailRoute | src/pages/EditJob.js:114 | the detail route is `/jobs/` followed by the record's id |
| EditJob.Resent | src/pages/EditJob.js:101-105 | an unedited optional field is sent back exactly when the record holds a non-empty value for it, and then as that value |
| EditJob.HandleSubmit | src/pages/EditJob.js:70-121 | validation as for adding; an accepted body goes to `updateJob`; the page opens `/jobs/<id>` exactly when the update succeeded, and alerts "Failed to update job. Please try again." on any later failure |
| EditJob.UneditedSaveKeepsRecord | src/pages/EditJob.js:40-105 | saving a loaded record unedited sends its title, company and status back, and each optional field exactly when the record had a non-empty value |
| EditJob.UndatedRecordNeedsDate | src/pages/EditJob.js:47-87 | a record without a date cannot be saved until a date is entered |
| JobList.SearchMatches | src/pages/JobList.js:39-43 | the search throws for a job without a title, or without a company when the title does not match; otherwise a job matches iff its folded title, company or (when present) location contains the folded term |
| JobList.SearchFilter | src/pages/JobList.js:38-44 | the filter throws exactly when the predicate throws for some job, and otherwise keeps exactly the matching jobs in order |
| JobList.StatusFilter | src/pages/JobList.js:47-49 | "all" keeps every job; any other value keeps the jobs with exactly that status |
| JobList.Comparator | src/pages/JobList.js:52-63 | each known sort key compares by its field (dates newest first, names by collation with a missing value as ""); any other key calls every pair equal |
| JobList.Search | src/pages/JobList.js:38-44 | an empty term keeps every job; otherwise only matching jobs are kept, all of them, and a job the search cannot read makes it throw |
| JobList.Arrange | src/pages/JobList.js:46-63 | the status filter keeps exactly the jobs with that status (all for "all"), and the sort of a copy adds or loses none |
| JobList.FilteredJobs | src/pages/JobList.js:29-66 | the view is a sub-multiset of the store's jobs; every shown job passes the search and the status filter, and every job passing both is shown; with no search and "all" it is a permutation of the whole collection |
| JobList.ViewSorted | src/pages/JobList.js:52-63 | with a consistent comparator the view is ordered by it |
| JobList.SortedByDates | src/pages/JobList.js:53-60 | sorting by `updatedAt` or `applicationDate` lists newest first, a missing date counting as 0 |
| JobList.SortedByNames | src/pages/JobList.js:55-58 | sorting by title or company follows the collation order, a missing value counting as "" |
| JobList.UnknownSortKeepsOrder | src/pages/JobList.js:62 | any other sort key shows the jobs passing the search and the status filter in the store's order, for every term and status filter |
| JobList.UntitledJobBreaksSearch | src/pages/JobList.js:40 | one job without a title makes every non-empty search throw |
| Dashboard.RecentJobs | src/pages/Dashboard.js:41-44 | at most five jobs, `min(5, n)` of them, taken from the collection; none exactly when there are no jobs |
| Dashboard.RecentNewestFirst | src/pages/Dashboard.js:43 | the panel is ordered newest `updatedAt` first, a missing value counting as 0 |
| Dashboard.OmittedNotNewer | src/pages/Dashboard.js:42-44 | no job left off the panel was updated later than the last one shown |
| Dashboard.NoJobsPanel | src/pages/Dashboard.js:159-162 | "No jobs yet" is shown exactly when there are no jobs, in particular for a non-array `jobs` |
| Dashboard.StoreAfterRender | src/pages/Dashboard.js:29-44 | while loading the store is untouched (the spinner returns first); when not loading the in-place sort leaves the store's array a permutation of itself, newest `updatedAt` first, other fields untouched |
| Dashboard.RenderKeepsStats | src/pages/Dashboard.js:42-43 | that reordering does not change `getStats` |

## Left out

- Rendering, CSS classes, icons, emoji and the navigation bar are not modelled: they hold no state.
- The analytics page is not modelled: its percentages are floating-point presentation.
- Network I/O is not modelled: each call is an abstract outcome. `jobService.js`'s wrappers and the `changePassword` endpoint are thin and have no logic.
- Dates are integer timestamps. `new Date`, `toISOString` and relative-time formatting are function parameters. Invalid dates, which make the job list's comparator return `NaN`, are not modelled.
- `localeCompare` and `toLowerCase` are abstract: an order and a fold passed as parameters.
- React scheduling is not modelled: effect re-runs, memoisation and the interleaving of concurrent operations. Each operation runs to completion on the state it started from.
- The `window.location.href` redirect on a 401 and `window.alert` become outcome fields: a flag and an optional message.
- Fields of the job record that no logic reads (`createdAt`, `userId`) are not modelled.
- JobContext.AddJob: the store appends whatever `createJob` resolved to, typed here as a job record. The shape of the server's create response is not part of this model. The update path reads its record from `response.data.job`, so the create body may well be an envelope rather than the record.
- JobContext.AddThenFind: assumes the create response body is the record itself; if it is an envelope, the appended value has no `_id` and is not found.
- JobContext.DeleteUndoesFreshAdd: assumes the create response body is the record itself, carrying the `_id` that the delete names.
- JobContext.AddJobCounts: assumes the create response body is the record itself, carrying its `status`.
- AuthService.StoreCredentials: a `data.user` of `null` is treated like an absent user and stored as "undefined". The source stores "null", which reads back as null, so a later `checkAuth` signs out with no error; here it signs out with the JSON syntax error instead. This matters only for a reply with a truthy token and a null user.
- A `getJobs` body of `null` makes `data.data` throw a TypeError in both the mount-time fetch and `refreshJobs`. The jobs reply here is either a rejection or a body whose `data.jobs` is present or absent, so that TypeError is not modelled.
- The job context carries no browser storage: the interceptor's clearing of the credentials on a 401 from a job request is stated by Api.OnResponseError alone.
- The wording of engine errors (TypeError, JSON syntax errors) is engine-dependent. It is a fixed placeholder text.
- JobForm.SetField: the field name is one of the form's nine inputs. An unknown `name` would add an extra key to the form object, which is not modelled.
- AddJob.HandleSubmit: the unhandled rejection of the un-awaited `addJob` and the `saving`/`loading` page flags of both forms are not modelled.
- The email verification and registration success pages are not modelled: only timers, redirects and raw fetches.
- `backend-urls.js` only holds constants, which appear here as the two URL strings.

=== FILE: addjob.dfy ===
/** The add-job page: its initial form and its submit handler, which hands the request
    body to the job context and navigates away without waiting for the result. */
module AddJob {
  import opened Values
  import opened Text
  import opened Jobs
  import opened JobForm
  import R = JobReducer
  import JobContext

  /** The initial form: status "applied", today's date and every other field empty.
      `nowIso` is `new Date().toISOString()`. */
  function DefaultForm(nowIso: string): (f: Form)
    ensures f.status == StatusApplied
    ensures IsPrefix(f.applicationDate, nowIso) && 'T' !in f.applicationDate
    ensures |f.applicationDate| < |nowIso| ==> nowIso[|f.applicationDate|] == 'T'
    ensures forall name :: name != Status && name != ApplicationDate ==> Get(f, name) == ""
  {
    Form("", "", "", StatusApplied, "", "", BeforeFirst(nowIso, 'T'), "", "")
  }

  const AddFailedAlert := "Failed to add job. Please try again."

  /** The route the page navigates to after handing over the body. */
  const JobsRoute := "/jobs"

  /** The effect of one submit: the alert shown, the route navigated to, the body handed to
      `addJob`, and the job store once that call has settled. */
  datatype Outcome = Outcome(alert: Option<string>, navigateTo: Option<string>, sent: Option<Payload>, store: R.JobState)

  /** `handleSubmit`. `created` is how `createJob(body)` settles. `addJob` is not awaited,
      so the page navigates to the list even when the create fails; its rejection is
      never handled here. */
  function HandleSubmit(f: Form, toIso: string -> Option<string>, s: R.JobState, created: Reply<Job>): (r: Outcome)
    ensures r.sent.Some? <==> Submit(f, toIso).Send?
    ensures r.sent.Some? ==>
              && r.sent.value == Submit(f, toIso).payload
              && r.alert == None
              && r.navigateTo == Some(JobsRoute)
              && r.store == JobContext.AddJob(s, created).state
    ensures Submit(f, toIso).Invalid? ==> r.alert == Some(Submit(f, toIso).alert)
    ensures Submit(f, toIso).DateConversionFailed? ==> r.alert == Some(AddFailedAlert)
    ensures r.sent.None? ==> r.navigateTo == None && r.store == s
  {
    match Submit(f, toIso)
    case Invalid(message) => Outcome(Some(message), None, None, s)
    case DateConversionFailed => Outcome(Some(AddFailedAlert), None, None, s)
    case Send(body) => Outcome(None, Some(JobsRoute), Some(body), JobContext.AddJob(s, created).state)
  }

  /** Submitting the untouched form asks for a title, and nothing is sent. */
  lemma UntouchedFormAsksForTitle(nowIso: string, toIso: string -> Option<string>, s: R.JobState, created: Reply<Job>)
    ensures HandleSubmit(DefaultForm(nowIso), toIso, s, created) == Outcome(Some(TitleAlert), None, None, s)
  {
  }

  /** A failed create still leaves the page for the list, with no alert: the store keeps
      its collection and records the error message instead. */
  lemma FailedCreateStillNavigates(f: Form, toIso: string -> Option<string>, s: R.JobState, e: JsError)
    requires Submit(f, toIso).Send?
    ensures var r := HandleSubmit(f, toIso, s, Rejected(e));
            && r.navigateTo == Some(JobsRoute) && r.alert == None
            && r.store.jobs == s.jobs && r.store.error.Some?
  {
  }

  /** Filling in the two required text fields of the initial form, whose date is already
      set, is enough for the body to be sent, with every optional field left out. */
  lemma RequiredFieldsSuffice(nowIso: string, title: string, company: string,
                              toIso: string -> Option<string>, s: R.JobState, created: Reply<Job>)
    requires !AllWhitespace(title) && !AllWhitespace(company)
    requires BeforeFirst(nowIso, 'T') != "" && toIso(BeforeFirst(nowIso, 'T')).Some?
    ensures var f := SetField(SetField(DefaultForm(nowIso), Title, title), Company, company);
            var r := HandleSubmit(f, toIso, s, created);
            && r.sent.Some? && r.sent.value.title == Trim(title) && r.sent.value.company == Trim(company)
            && r.sent.value.status == StatusApplied
            && Some(r.sent.value.applicationDate) == toIso(BeforeFirst(nowIso, 'T'))
            && r.sent.value.location == None && r.sent.value.salary == None
            && r.sent.value.description == None && r.sent.value.jobUrl == None
            && r.sent.value.notes == None
  {
    var f := SetField(SetField(DefaultForm(nowIso), Title, title), Company, company);
    assert f.applicationDate == BeforeFirst(nowIso, 'T');
    assert AllWhitespace(f.location) && AllWhitespace(f.salary) && AllWhitespace(f.description);
    assert AllWhitespace(f.jobUrl) && AllWhitespace(f.notes);
  }
}

=== FILE: api.dfy ===
/** The HTTP client's interceptors: the bearer header added to every request and the
    classification of failed responses. */
module Api {
  import opened Values
  import AS = AuthService

  const DefaultBaseUrl := "http://localhost:5000/api"
  const TooManyRequests := "Too many requests. Please wait a moment and try again."
  const ServiceUnavailable := "Service temporarily unavailable. Please try again later."
  const NetworkError := "Network error. Please check your connection and try again."

  /** The client's `baseURL`: `REACT_APP_API_URL`, or the local default. */
  function BaseUrl(envApiUrl: Option<string>): (url: string)
    ensures Truthy(envApiUrl) ==> url == envApiUrl.value
    ensures !Truthy(envApiUrl) ==> url == DefaultBaseUrl
  {
    OrElse(envApiUrl, DefaultBaseUrl)
  }

  type Headers = map<string, string>

  /** The request interceptor: `Authorization: Bearer <token>` when a truthy token is stored. */
  function Authorize(headers: Headers, storage: AS.Storage): (r: Headers)
    ensures AS.IsAuthenticated(storage) ==>
              && r.Keys == headers.Keys + {"Authorization"}
              && r["Authorization"] == "Bearer " + storage[AS.TokenKey]
              && forall k :: k in headers && k != "Authorization" ==> r[k] == headers[k]
    ensures !AS.IsAuthenticated(storage) ==> r == headers
  {
    var token := AS.GetToken(storage);
    if Truthy(token) then headers["Authorization" := "Bearer " + token.value] else headers
  }

  /** What the error interceptor leaves behind before rejecting with the same error. */
  datatype Intercepted = Intercepted(storage: AS.Storage, error: JsError, redirectToLogin: bool)

  /** The error interceptor. A 429, a 503 and a missing response each attach their
      `userMessage`; a 401 removes both credential keys and redirects to `/login`. Every
      error is rejected again, with its response and message unchanged. */
  function OnResponseError(storage: AS.Storage, e: JsError): (r: Intercepted)
    ensures r.error.response == e.response && r.error.message == e.message
    ensures StatusOf(e) == Some(429) ==> r.error.userMessage == Some(TooManyRequests)
    ensures StatusOf(e) == Some(503) ==> r.error.userMessage == Some(ServiceUnavailable)
    ensures e.response.None? ==> r.error.userMessage == Some(NetworkError)
    ensures StatusOf(e) == Some(401) ==> r.storage == AS.Logout(storage) && r.redirectToLogin && r.error == e
    ensures StatusOf(e) != Some(401) ==> r.storage == storage && !r.redirectToLogin
    ensures e.response.Some? && StatusOf(e) != Some(429) && StatusOf(e) != Some(503) ==> r.error == e
  {
    var status := StatusOf(e);
    var e1 := if status == Some(429) then e.(userMessage := Some(TooManyRequests)) else e;
    var cleared := if status == Some(401) then AS.Logout(storage) else storage;
    var e2 := if status == Some(503) then e1.(userMessage := Some(ServiceUnavailable)) else e1;
    var e3 := if e.response.None? then e2.(userMessage := Some(NetworkError)) else e2;
    Intercepted(cleared, e3, status == Some(401))
  }

  /** A 401 anywhere signs the browser out: no token is left for the next request. */
  lemma UnauthorizedClearsCredentials(storage: AS.Storage, e: JsError, headers: Headers)
    requires StatusOf(e) == Some(401)
    ensures var r := OnResponseError(storage, e);
            !AS.IsAuthenticated(r.storage) && Authorize(headers, r.storage) == headers
  {
  }
}

=== FILE: auth_context.dfy ===
/** The session context's operations, each written as the actions it dispatches and the
    storage effects of the auth service, given the outcome of its network call. Errors
    arrive as the response interceptor left them (see module Api). */
module AuthContext {
  import opened Values
  import R = AuthReducer
  import S = AuthService
  import Api

  /** The session state and the browser storage together. */
  datatype Session = Session(auth: R.AuthState, storage: S.Storage)

  /** A session operation's effect and what it returned or threw. */
  datatype Call<+T> = Call(auth: R.AuthState, storage: S.Storage, result: Result<T>)

  const LoginFailed := "Login failed"
  const RegistrationFailed := "Registration failed"
  const ProfileUpdateFailed := "Profile update failed"

  /** The storage a rejected request leaves: the response interceptor has already removed
      both credential keys when the status was 401. */
  function StorageAfterRejection(storage: S.Storage, e: JsError): (r: S.Storage)
    ensures StatusOf(e) == Some(401) ==> r == S.Logout(storage)
    ensures StatusOf(e) != Some(401) ==> r == storage
  {
    Api.OnResponseError(storage, e).storage
  }

  /** `error.response?.data?.message || error.message || fallback` */
  function FailureMessage(e: JsError, fallback: string): (m: string)
    ensures e.response.Some? && Truthy(e.response.value.bodyMessage) ==> m == e.response.value.bodyMessage.value
    ensures !(e.response.Some? && Truthy(e.response.value.bodyMessage)) && e.message != "" ==> m == e.message
    ensures !(e.response.Some? && Truthy(e.response.value.bodyMessage)) && e.message == "" ==> m == fallback
  {
    var body := if e.response.Some? then e.response.value.bodyMessage else None;
    OrElse(body, OrElse(Some(e.message), fallback))
  }

  /** `checkAuth`, run when the provider mounts: verifies stored credentials with the
      profile endpoint. On a 401 the stored credentials are cleared (the interceptor has
      already done the same); on any other failure the stored user is trusted. */
  function CheckAuth(s: R.AuthState, storage: S.Storage, json: S.Json, profile: Reply<S.AuthBody>): (r: Session)
    ensures !r.auth.loading
    ensures S.GetCurrentUser(storage, json).Thrown? ==>
              r.storage == storage && r.auth == R.SignedOut(Some(S.GetCurrentUser(storage, json).error.message))
    ensures S.GetCurrentUser(storage, json).Ok? && (S.GetCurrentUser(storage, json).value.None? || !Truthy(S.GetToken(storage))) ==>
              r.storage == storage && r.auth == R.SignedOut(None)
    ensures var user := S.GetCurrentUser(storage, json);
            var token := S.GetToken(storage);
            user.Ok? && user.value.Some? && Truthy(token) ==>
              match profile
              case Resolved(body) =>
                r.storage == storage && r.auth == R.AuthState(body.user, token, true, false, None)
              case Rejected(e) =>
                if StatusOf(e) == Some(401) then
                  r.storage == S.Logout(storage) && r.auth == R.SignedOut(None)
                else
                  r.storage == storage && r.auth == R.AuthState(user.value, token, true, false, None)
  {
    var token := S.GetToken(storage);
    match S.GetCurrentUser(storage, json)
    case Thrown(e) => Session(R.Reduce(s, R.AuthFailure(Some(e.message))), storage)
    case Ok(user) =>
      if Truthy(token) && user.Some? then
        match profile
        case Resolved(body) => Session(R.Reduce(s, R.AuthSuccess(body.user, token)), storage)
        case Rejected(e) =>
          if StatusOf(e) == Some(401) then Session(R.Reduce(s, R.AuthFailure(None)), S.Logout(storage))
          else Session(R.Reduce(s, R.AuthSuccess(user, token)), storage)
      else Session(R.Reduce(s, R.AuthFailure(None)), storage)
  }

  /** `login`. A response without `data` makes `data.data.user` throw a TypeError, which
      is reported like a failed request. A 401 rejection arrives after the interceptor
      cleared the stored credentials. */
  function Login(s: R.AuthState, storage: S.Storage, json: S.Json, reply: Reply<S.AuthBody>): (r: Call<S.AuthBody>)
    ensures !r.auth.loading
    ensures reply.Rejected? ==>
              r.storage == (if StatusOf(reply.error) == Some(401) then S.Logout(storage) else storage)
              && r.result == Thrown(reply.error)
              && r.auth == R.SignedOut(Some(FailureMessage(reply.error, LoginFailed)))
    ensures reply.Resolved? ==> r.storage == S.Login(storage, json, reply.value)
    ensures reply.Resolved? && reply.value.data.Some? ==>
              r.result == Ok(reply.value)
              && r.auth == R.AuthState(reply.value.data.value.user, reply.value.data.value.token, true, false, None)
    ensures reply.Resolved? && reply.value.data.None? ==>
              r.result.Thrown? && r.auth == R.SignedOut(Some(TypeErrorMessage))
  {
    var s1 := R.Reduce(s, R.AuthStart);
    match reply
    case Rejected(e) => Call(R.Reduce(s1, R.AuthFailure(Some(FailureMessage(e, LoginFailed)))), StorageAfterRejection(storage, e), Thrown(e))
    case Resolved(body) =>
      var stored := S.Login(storage, json, body);
      match body.data
      case None =>
        var e := ClientError(TypeErrorMessage);
        Call(R.Reduce(s1, R.AuthFailure(Some(FailureMessage(e, LoginFailed)))), stored, Thrown(e))
      case Some(d) => Call(R.Reduce(s1, R.AuthSuccess(d.user, d.token)), stored, Ok(body))
  }

  /** `register`: a response asking for e-mail verification leaves the session signed out
      with no error, even though a token in it is still stored. */
  function Register(s: R.AuthState, storage: S.Storage, json: S.Json, reply: Reply<S.AuthBody>): (r: Call<S.AuthBody>)
    ensures !r.auth.loading
    ensures reply.Rejected? ==>
              r.storage == (if StatusOf(reply.error) == Some(401) then S.Logout(storage) else storage)
              && r.result == Thrown(reply.error)
              && r.auth == R.SignedOut(Some(FailureMessage(reply.error, RegistrationFailed)))
    ensures reply.Resolved? ==> r.storage == S.Register(storage, json, reply.value)
    ensures reply.Resolved? && reply.value.data.Some? && reply.value.data.value.requiresVerification ==>
              r.result == Ok(reply.value) && r.auth == R.SignedOut(None)
    ensures reply.Resolved? && reply.value.data.Some? && !reply.value.data.value.requiresVerification ==>
              r.result == Ok(reply.value)
              && r.auth == R.AuthState(reply.value.data.value.user, reply.value.data.value.token, true, false, None)
    ensures reply.Resolved? && reply.value.data.None? ==>
              r.result.Thrown? && r.auth == R.SignedOut(Some(TypeErrorMessage))
  {
    var s1 := R.Reduce(s, R.AuthStart);
    match reply
    case Rejected(e) => Call(R.Reduce(s1, R.AuthFailure(Some(FailureMessage(e, RegistrationFailed)))), StorageAfterRejection(storage, e), Thrown(e))
    case Resolved(body) =>
      var stored := S.Register(storage, json, body);
      if body.data.Some? && body.data.value.requiresVerification then
        Call(R.Reduce(s1, R.AuthFailure(None)), stored, Ok(body))
      else
        match body.data
        case None =>
          var e := ClientError(TypeErrorMessage);
          Call(R.Reduce(s1, R.AuthFailure(Some(FailureMessage(e, RegistrationFailed)))), stored, Thrown(e))
        case Some(d) => Call(R.Reduce(s1, R.AuthSuccess(d.user, d.token)), stored, Ok(body))
  }

  /** `logout`: clears storage and the session. */
  function Logout(s: R.AuthState, storage: S.Storage): (r: Session)
    ensures r.auth == R.SignedOut(None)
    ensures !S.IsAuthenticated(r.storage) && S.GetToken(r.storage) == None
    ensures forall k :: k in storage && k != S.TokenKey && k != S.UserKey ==> k in r.storage && r.storage[k] == storage[k]
  {
    Session(R.Reduce(s, R.Logout), S.Logout(storage))
  }

  /** `updateProfile`: merges the response's `user` into the session's user; any failure,
      including unreadable stored JSON, signs the session out with a message. A 401 has
      also cleared the stored credentials. */
  function UpdateProfile(s: R.AuthState, storage: S.Storage, json: S.Json, reply: Reply<S.AuthBody>): (r: Call<S.AuthBody>)
    ensures reply.Rejected? ==>
              r.storage == (if StatusOf(reply.error) == Some(401) then S.Logout(storage) else storage)
              && r.result == Thrown(reply.error)
              && r.auth == R.SignedOut(Some(FailureMessage(reply.error, ProfileUpdateFailed)))
    ensures reply.Resolved? && S.UpdateProfile(storage, json, reply.value).Ok? ==>
              && r.result == Ok(reply.value)
              && r.storage == S.UpdateProfile(storage, json, reply.value).value
              && r.auth == s.(user := Some(Spread(s.user, reply.value.user)))
    ensures reply.Resolved? && S.UpdateProfile(storage, json, reply.value).Thrown? ==>
              r.storage == storage && r.result == Thrown(S.UpdateProfile(storage, json, reply.value).error)
              && r.auth == R.SignedOut(Some(FailureMessage(S.UpdateProfile(storage, json, reply.value).error, ProfileUpdateFailed)))
  {
    match reply
    case Rejected(e) => Call(R.Reduce(s, R.AuthFailure(Some(FailureMessage(e, ProfileUpdateFailed)))), StorageAfterRejection(storage, e), Thrown(e))
    case Resolved(body) =>
      match S.UpdateProfile(storage, json, body)
      case Thrown(e) =>
        Call(R.Reduce(s, R.AuthFailure(Some(FailureMessage(e, ProfileUpdateFailed)))), storage, Thrown(e))
      case Ok(stored) => Call(R.Reduce(s, R.UpdateUser(body.user)), stored, Ok(body))
  }

  /** `clearError` */
  function ClearError(s: R.AuthState): (r: R.AuthState)
    ensures r.error == None && r.(error := s.error) == s
  {
    R.Reduce(s, R.ClearError)
  }

  /** Whichever way login, register or a profile update fails, the session ends signed out
      with a non-empty error message. */
  lemma {:induction false} FailuresSignOut(s: R.AuthState, storage: S.Storage, json: S.Json, reply: Reply<S.AuthBody>)
    ensures var r := Login(s, storage, json, reply);
            r.result.Thrown? ==> !r.auth.isAuthenticated && r.auth.token == None && Truthy(r.auth.error)
    ensures var r := Register(s, storage, json, reply);
            r.result.Thrown? ==> !r.auth.isAuthenticated && r.auth.token == None && Truthy(r.auth.error)
    ensures var r := UpdateProfile(s, storage, json, reply);
            r.result.Thrown? ==> !r.auth.isAuthenticated && r.auth.token == None && Truthy(r.auth.error)
  {
    if reply.Resolved? {
      var body := reply.value;
      match S.UpdateProfile(storage, json, body)
      case Thrown(e) =>
        assert e.message == S.SyntaxErrorMessage;
      case Ok(_) =>
    }
  }

  /** A request the server rejects with 401 leaves no credentials behind, whichever of
      login, register or a profile update sent it, and keeps every other stored key. */
  lemma UnauthorizedRejectionClears(s: R.AuthState, storage: S.Storage, json: S.Json, e: JsError)
    requires StatusOf(e) == Some(401)
    ensures var r := Login(s, storage, json, Rejected(e));
            !S.IsAuthenticated(r.storage) && S.UserKey !in r.storage && r.storage.Keys == storage.Keys - {S.TokenKey, S.UserKey}
    ensures var r := Register(s, storage, json, Rejected(e));
            !S.IsAuthenticated(r.storage) && S.UserKey !in r.storage && r.storage.Keys == storage.Keys - {S.TokenKey, S.UserKey}
    ensures var r := UpdateProfile(s, storage, json, Rejected(e));
            !S.IsAuthenticated(r.storage) && S.UserKey !in r.storage && r.storage.Keys == storage.Keys - {S.TokenKey, S.UserKey}
  {
  }

  /** A session restored after a reload: once login stored a token and a user, `checkAuth`
      authenticates with them even when the profile check fails for a reason other than 401,
      and signs out, clearing storage, on a 401. */
  lemma RestoreAfterLogin(storage: S.Storage, json: S.Json, data: S.AuthData, e: JsError)
    requires S.ValidJson(json)
    requires Truthy(data.token) && data.user.Some?
    ensures var stored := Login(R.InitialState, storage, json, Resolved(S.AuthBody(Some(data), None))).storage;
            var r := CheckAuth(R.InitialState, stored, json, Rejected(e));
            if StatusOf(e) == Some(401) then
              !r.auth.isAuthenticated && !S.IsAuthenticated(r.storage)
            else
              r.auth == R.AuthState(data.user, data.token, true, false, None)
  {
    S.LoginRoundTrip(storage, json, data);
  }

  /** A login response whose `data` lacks a token still marks the session authenticated,
      while nothing is stored: a reload then finds no credentials. */
  lemma LoginWithoutToken(storage: S.Storage, json: S.Json, user: Option<Obj>, profile: Reply<S.AuthBody>)
    requires !S.IsAuthenticated(storage)
    ensures var r := Login(R.InitialState, storage, json, Resolved(S.AuthBody(Some(S.AuthData(user, None, false)), None)));
            r.auth.isAuthenticated && r.storage == storage
            && !CheckAuth(R.InitialState, r.storage, json, profile).auth.isAuthenticated
  {
  }
}

=== FILE: auth_reducer.dfy ===
/** The session store: its state and the reducer that applies dispatched actions. */
module AuthReducer {
  import opened Values

  datatype AuthState = AuthState(user: Option<Obj>, token: Option<string>, isAuthenticated: bool, loading: bool, error: Option<string>)

  /** The state before the stored credentials have been checked. */
  const InitialState := AuthState(None, None, false, true, None)

  datatype AuthAction =
    | AuthStart
    | AuthSuccess(user: Option<Obj>, token: Option<string>)
    | AuthFailure(error: Option<string>)
    | Logout
    | UpdateUser(fields: Option<Obj>)
    | ClearError
    | OtherAction(kind: string)

  /** The signed-out state AUTH_FAILURE and LOGOUT produce, with the given error. */
  function SignedOut(error: Option<string>): AuthState {
    AuthState(None, None, false, false, error)
  }

  /** `authReducer` */
  function Reduce(s: AuthState, a: AuthAction): (r: AuthState)
    ensures a.AuthStart? ==> r.loading && r.error == None
                             && r.user == s.user && r.token == s.token && r.isAuthenticated == s.isAuthenticated
    ensures a.AuthSuccess? ==> r.user == a.user && r.token == a.token && r.isAuthenticated
                               && !r.loading && r.error == None
    ensures a.AuthFailure? ==> r.user == None && r.token == None && !r.isAuthenticated
                               && !r.loading && r.error == a.error
    ensures a.Logout? ==> r.user == None && r.token == None && !r.isAuthenticated
                          && !r.loading && r.error == None
    ensures a.UpdateUser? ==> r.user == Some(Spread(s.user, a.fields))
                              && r.token == s.token && r.isAuthenticated == s.isAuthenticated
                              && r.loading == s.loading && r.error == s.error
    ensures a.ClearError? ==> r.error == None
                              && r.user == s.user && r.token == s.token
                              && r.isAuthenticated == s.isAuthenticated && r.loading == s.loading
    ensures a.OtherAction? ==> r == s
  {
    match a
    case AuthStart => s.(loading := true, error := None)
    case AuthSuccess(user, token) => AuthState(user, token, true, false, None)
    case AuthFailure(error) => SignedOut(error)
    case Logout => SignedOut(None)
    case UpdateUser(fields) => s.(user := Some(Spread(s.user, fields)))
    case ClearError => s.(error := None)
    case OtherAction(_) => s
  }

  /** LOGOUT is AUTH_FAILURE without an error, and logging out twice is logging out once. */
  lemma LogoutIsQuietFailure(s: AuthState)
    ensures Reduce(s, Logout) == Reduce(s, AuthFailure(None))
    ensures Reduce(Reduce(s, Logout), Logout) == Reduce(s, Logout)
  {
  }

  /** The one property every action preserves: an unauthenticated session holds no token. */
  predicate NoTokenWhenSignedOut(s: AuthState) {
    !s.isAuthenticated ==> s.token.None?
  }

  lemma InitialHasNoToken()
    ensures NoTokenWhenSignedOut(InitialState)
  {
  }

  lemma ReducePreservesNoToken(s: AuthState, a: AuthAction)
    requires NoTokenWhenSignedOut(s)
    ensures NoTokenWhenSignedOut(Reduce(s, a))
  {
  }

  /** The user field does not follow the same rule: UPDATE_USER on a signed-out session
      leaves a user object in an unauthenticated state. */
  lemma UserWithoutSession()
    ensures var r := Reduce(InitialState, UpdateUser(Some(map["name" := "\"Ann\""])));
            !r.isAuthenticated && r.user.Some?
  {
  }
}

=== FILE: auth_service.dfy ===
/** The persisted credentials: `localStorage` as a string-keyed map holding the bearer token
    and the JSON text of the user object. */
module AuthService {
  import opened Values

  type Storage = map<string, string>

  const TokenKey := "jobTrackerToken"
  const UserKey := "jobTrackerUser"

  /** What `JSON.parse` yields for the texts stored here. */
  datatype Parsed = ParsedObject(obj: Obj) | ParsedNull | SyntaxError

  /** `JSON.stringify` on user objects and `JSON.parse`, supplied by the caller. */
  datatype Json = Json(stringify: Obj -> string, parse: string -> Parsed)

  /** The behaviour of the JSON functions this model relies on. */
  ghost predicate ValidJson(json: Json) {
    && (forall o :: json.parse(json.stringify(o)) == ParsedObject(o))
    && (forall o :: json.stringify(o) != "")
    && json.parse("{}") == ParsedObject(map[])
    && json.parse("undefined") == SyntaxError
  }

  const SyntaxErrorMessage := "Unexpected token in JSON"

  /** The text `localStorage.setItem(UserKey, JSON.stringify(user))` stores: a missing user
      stringifies to `undefined`, which the store turns into the text "undefined". */
  function UserText(json: Json, user: Option<Obj>): string {
    match user
    case Some(o) => json.stringify(o)
    case None => "undefined"
  }

  function Lookup(storage: Storage, key: string): Option<string> {
    if key in storage then Some(storage[key]) else None
  }

  /** The `data` object of an authentication response body. */
  datatype AuthData = AuthData(user: Option<Obj>, token: Option<string>, requiresVerification: bool)

  /** An authentication response body: its `data` object and its top-level `user`. */
  datatype AuthBody = AuthBody(data: Option<AuthData>, user: Option<Obj>)

  /** The storage effect shared by `login` and `register`: both keys are written exactly when
      the response carries a truthy `data.token`. */
  function StoreCredentials(storage: Storage, json: Json, body: AuthBody): (r: Storage)
    ensures body.data.Some? && Truthy(body.data.value.token) ==>
              && r.Keys == storage.Keys + {TokenKey, UserKey}
              && r[TokenKey] == body.data.value.token.value
              && r[UserKey] == UserText(json, body.data.value.user)
              && forall k :: k in storage && k != TokenKey && k != UserKey ==> r[k] == storage[k]
    ensures !(body.data.Some? && Truthy(body.data.value.token)) ==> r == storage
  {
    if body.data.Some? && Truthy(body.data.value.token) then
      storage[TokenKey := body.data.value.token.value][UserKey := UserText(json, body.data.value.user)]
    else storage
  }

  /** `authService.login` once the request resolved. */
  function Login(storage: Storage, json: Json, body: AuthBody): (r: Storage)
    ensures body.data.Some? && Truthy(body.data.value.token) ==>
              IsAuthenticated(r) && GetToken(r) == body.data.value.token && UserKey in r
    ensures !(body.data.Some? && Truthy(body.data.value.token)) ==> r == storage
  {
    StoreCredentials(storage, json, body)
  }

  /** `authService.register` once the request resolved. */
  function Register(storage: Storage, json: Json, body: AuthBody): (r: Storage)
    ensures body.data.Some? && Truthy(body.data.value.token) ==>
              IsAuthenticated(r) && GetToken(r) == body.data.value.token && UserKey in r
    ensures !(body.data.Some? && Truthy(body.data.value.token)) ==> r == storage
  {
    StoreCredentials(storage, json, body)
  }

  /** `authService.logout`: removes the two credential keys (the server notification is
      fire-and-forget). */
  function Logout(storage: Storage): (r: Storage)
    ensures r.Keys == storage.Keys - {TokenKey, UserKey}
    ensures forall k :: k in r ==> r[k] == storage[k]
  {
    storage - {TokenKey, UserKey}
  }

  /** `authService.getToken` */
  function GetToken(storage: Storage): (r: Option<string>)
    ensures r.Some? <==> TokenKey in storage
    ensures r.Some? ==> r.value == storage[TokenKey]
  {
    Lookup(storage, TokenKey)
  }

  /** `authService.isAuthenticated`: a non-empty token is stored. */
  function IsAuthenticated(storage: Storage): (b: bool)
    ensures b <==> TokenKey in storage && storage[TokenKey] != ""
  {
    Truthy(GetToken(storage))
  }

  /** `authService.getCurrentUser`: the parsed stored user; null when the key is absent or
      empty; throws when the stored text is not JSON. */
  function GetCurrentUser(storage: Storage, json: Json): (r: Result<Option<Obj>>)
    ensures !(UserKey in storage && storage[UserKey] != "") ==> r == Ok(None)
    ensures UserKey in storage && storage[UserKey] != "" ==>
              match json.parse(storage[UserKey])
              case ParsedObject(o) => r == Ok(Some(o))
              case ParsedNull => r == Ok(None)
              case SyntaxError => r.Thrown?
  {
    var text := Lookup(storage, UserKey);
    if !Truthy(text) then Ok(None)
    else match json.parse(text.value)
      case ParsedObject(o) => Ok(Some(o))
      case ParsedNull => Ok(None)
      case SyntaxError => Thrown(ClientError(SyntaxErrorMessage))
  }

  /** `authService.updateProfile` once the request resolved: stores the stored user (or `{}`)
      spread with the response's `user`. Throws, storing nothing, if the stored text is not JSON. */
  function UpdateProfile(storage: Storage, json: Json, body: AuthBody): (r: Result<Storage>)
    ensures r.Ok? ==> r.value.Keys == storage.Keys + {UserKey}
                      && forall k :: k in storage && k != UserKey ==> r.value[k] == storage[k]
  {
    var text := OrElse(Lookup(storage, UserKey), "{}");
    match json.parse(text)
    case SyntaxError => Thrown(ClientError(SyntaxErrorMessage))
    case ParsedNull => Ok(storage[UserKey := json.stringify(Spread(None, body.user))])
    case ParsedObject(current) => Ok(storage[UserKey := json.stringify(Spread(Some(current), body.user))])
  }

  /** A login that returned a token and a user can be read back: the token is stored and
      `getCurrentUser` returns that user. */
  lemma LoginRoundTrip(storage: Storage, json: Json, data: AuthData)
    requires ValidJson(json)
    requires Truthy(data.token) && data.user.Some?
    ensures var stored := Login(storage, json, AuthBody(Some(data), None));
            && IsAuthenticated(stored)
            && GetToken(stored) == data.token
            && GetCurrentUser(stored, json) == Ok(data.user)
  {
    var stored := Login(storage, json, AuthBody(Some(data), None));
    assert stored[UserKey] == json.stringify(data.user.value);
    assert json.parse(json.stringify(data.user.value)) == ParsedObject(data.user.value);
  }

  /** Logging out forgets the credentials and nothing else. */
  lemma LogoutForgets(storage: Storage, json: Json)
    ensures !IsAuthenticated(Logout(storage))
    ensures GetToken(Logout(storage)) == None
    ensures GetCurrentUser(Logout(storage), json) == Ok(None)
    ensures Logout(Logout(storage)) == Logout(storage)
  {
  }

  /** After a profile update the stored user is the old one with the response's fields
      written over it. */
  lemma UpdateProfileMerges(storage: Storage, json: Json, body: AuthBody, previous: Obj)
    requires ValidJson(json)
    requires UserKey in storage && storage[UserKey] == json.stringify(previous)
    ensures var r := UpdateProfile(storage, json, body);
            && r.Ok?
            && GetCurrentUser(r.value, json) == Ok(Some(Spread(Some(previous), body.user)))
  {
    var merged := Spread(Some(previous), body.user);
    assert json.parse(json.stringify(previous)) == ParsedObject(previous);
    assert json.parse(json.stringify(merged)) == ParsedObject(merged);
  }

  /** With nothing stored, the profile update stores the response's user alone. */
  lemma UpdateProfileFromEmpty(storage: Storage, json: Json, body: AuthBody)
    requires ValidJson(json)
    requires UserKey !in storage
    ensures var r := UpdateProfile(storage, json, body);
            r.Ok? && GetCurrentUser(r.value, json) == Ok(Some(body.user.GetOr(map[])))
  {
    var merged := Spread(Some(map[]), body.user);
    assert merged == body.user.GetOr(map[]);
    assert json.parse(json.stringify(merged)) == ParsedObject(merged);
  }
}

=== FILE: dashboard.dfy ===
/** The dashboard's "Recent Jobs" panel: the five most recently updated jobs. */
module Dashboard {
  import opened Values
  import opened Jobs
  import opened Seqs
  import R = JobReducer

  /** How many jobs the panel shows at most. */
  const RecentLimit := 5

  /** `safeJobs.sort(newest updatedAt first).slice(0, 5)` */
  function RecentJobs(jobs: JobsValue): (r: seq<Job>)
    ensures |r| == if |SafeJobs(jobs)| < RecentLimit then |SafeJobs(jobs)| else RecentLimit
    ensures multiset(r) <= multiset(SafeJobs(jobs))
    ensures r == [] <==> SafeJobs(jobs) == []
  {
    var sorted := Sort(SafeJobs(jobs), NewestUpdatedFirst());
    var n := if |sorted| < RecentLimit then |sorted| else RecentLimit;
    assert sorted == sorted[..n] + sorted[n..];
    sorted[..n]
  }

  /** The panel lists its jobs newest first, a missing `updatedAt` counting as 0. */
  lemma RecentNewestFirst(jobs: JobsValue)
    ensures var r := RecentJobs(jobs);
            forall i, j :: 0 <= i < j < |r| ==> DateKey(r[j].updatedAt) <= DateKey(r[i].updatedAt)
  {
    SortSorted(SafeJobs(jobs), NewestUpdatedFirst());
  }

  /** No job left off the panel was updated later than the last one shown. */
  lemma OmittedNotNewer(jobs: JobsValue)
    ensures var r := RecentJobs(jobs);
            forall x :: x in multiset(SafeJobs(jobs)) - multiset(r) ==>
                          r != [] && DateKey(x.updatedAt) <= DateKey(r[|r| - 1].updatedAt)
  {
    var rest := RecentRest(jobs);
    if rest != [] {
      SortSorted(SafeJobs(jobs), NewestUpdatedFirst());
      SuffixFollows(RecentJobs(jobs), rest, NewestUpdatedFirst());
    }
  }

  /** The sorted collection is the panel followed by the jobs it leaves out. */
  lemma RecentRest(jobs: JobsValue) returns (rest: seq<Job>)
    ensures Sort(SafeJobs(jobs), NewestUpdatedFirst()) == RecentJobs(jobs) + rest
    ensures multiset(SafeJobs(jobs)) - multiset(RecentJobs(jobs)) == multiset(rest)
    ensures rest != [] ==> RecentJobs(jobs) != []
  {
    var sorted := Sort(SafeJobs(jobs), NewestUpdatedFirst());
    rest := sorted[|RecentJobs(jobs)|..];
    assert sorted == RecentJobs(jobs) + rest;
  }

  /** In a sorted sequence everything after a non-empty prefix may follow its last element. */
  lemma SuffixFollows(prefix: seq<Job>, rest: seq<Job>, le: (Job, Job) -> bool)
    requires prefix != []
    requires SortedBy(prefix + rest, le)
    ensures forall x :: x in multiset(rest) ==> le(prefix[|prefix| - 1], x)
  {
    var s := prefix + rest;
    forall x | x in multiset(rest)
      ensures le(prefix[|prefix| - 1], x)
    {
      var j :| 0 <= j < |rest| && rest[j] == x;
      assert s[|prefix| + j] == x && s[|prefix| - 1] == prefix[|prefix| - 1];
    }
  }

  /** The panel shows "No jobs yet" exactly when there is no job to list. */
  predicate ShowsNoJobsYet(jobs: JobsValue) {
    |RecentJobs(jobs)| == 0
  }

  /** A non-array `jobs` falls back to the empty list, so the panel invites adding a job. */
  lemma NoJobsPanel(jobs: JobsValue)
    ensures ShowsNoJobsYet(jobs) <==> SafeJobs(jobs) == []
    ensures jobs.NotArray? ==> ShowsNoJobsYet(jobs)
  {
  }

  /** `sort` works in place, so rendering the panel also reorders the store's own array.
      While the store is loading the page returns its spinner before that sort is reached. */
  function StoreAfterRender(s: R.JobState): (r: R.JobState)
    ensures s.loading ==> r == s
    ensures r.jobs.JobArray? <==> s.jobs.JobArray?
    ensures s.jobs.JobArray? ==> multiset(r.jobs.items) == multiset(s.jobs.items)
    ensures !s.loading && s.jobs.JobArray? ==>
              forall i, j :: 0 <= i < j < |r.jobs.items| ==> DateKey(r.jobs.items[j].updatedAt) <= DateKey(r.jobs.items[i].updatedAt)
    ensures r.loading == s.loading && r.error == s.error && r.stats == s.stats
  {
    if s.loading then s
    else match s.jobs
    case NotArray => s
    case JobArray(items) =>
      assert SortedBy(Sort(items, NewestUpdatedFirst()), NewestUpdatedFirst()) by {
        SortSorted(items, NewestUpdatedFirst());
      }
      s.(jobs := JobArray(Sort(items, NewestUpdatedFirst())))
  }

  /** The reordering is harmless to the statistics: every count is unchanged. */
  lemma RenderKeepsStats(s: R.JobState)
    ensures R.GetStats(StoreAfterRender(s)) == R.GetStats(s)
  {
    if s.jobs.JobArray? && !R.HasStats(s) {
      var a := s.jobs.items;
      var b := StoreAfterRender(s).jobs.items;
      PermutationFilterLength(a, b, HasStatus(StatusApplied));
      PermutationFilterLength(a, b, HasStatus(StatusInterviewing));
      PermutationFilterLength(a, b, HasStatus(StatusOffered));
      PermutationFilterLength(a, b, HasStatus(StatusRejected));
      PermutationFilterLength(a, b, HasStatus(StatusWithdrawn));
    }
  }
}

=== FILE: editjob.dfy ===
/** The edit-job page: loading the stored record into the form, and the submit handler,
    which awaits the update and then shows the record or an alert. */
module EditJob {
  import opened Values
  import opened Text
  import opened Jobs
  import opened JobForm
  import R = JobReducer
  import JobContext

  /** The form before a record is loaded: status "applied", everything else empty. */
  const EmptyForm := Form("", "", "", StatusApplied, "", "", "", "", "")

  const NotFound := "Job not found"
  const LoadFailed := "Failed to load job data"
  const UpdateFailedAlert := "Failed to update job. Please try again."

  /** The date input's value for a stored date: the ISO text before its 'T', or "" when
      there is no date. `isoOf` is `new Date(value).toISOString()`. */
  function DateInput(d: Option<int>, isoOf: int -> string): (r: string)
    ensures d.None? ==> r == ""
    ensures d.Some? ==> IsPrefix(r, isoOf(d.value)) && 'T' !in r
                        && (|r| < |isoOf(d.value)| ==> isoOf(d.value)[|r|] == 'T')
  {
    match d
    case None => ""
    case Some(t) => BeforeFirst(isoOf(t), 'T')
  }

  /** The form pre-populated from a stored record: every text field is the record's value,
      or "" when that is missing or empty, and a missing status reads "applied". */
  function Prefill(job: Job, isoOf: int -> string): (f: Form)
    ensures (f.title != "" <==> Truthy(job.title)) && (f.title != "" ==> f.title == job.title.value)
    ensures (f.company != "" <==> Truthy(job.company)) && (f.company != "" ==> f.company == job.company.value)
    ensures (f.location != "" <==> Truthy(job.location)) && (f.location != "" ==> f.location == job.location.value)
    ensures (f.salary != "" <==> Truthy(job.salary)) && (f.salary != "" ==> f.salary == job.salary.value)
    ensures (f.description != "" <==> Truthy(job.description)) && (f.description != "" ==> f.description == job.description.value)
    ensures (f.jobUrl != "" <==> Truthy(job.jobUrl)) && (f.jobUrl != "" ==> f.jobUrl == job.jobUrl.value)
    ensures (f.notes != "" <==> Truthy(job.notes)) && (f.notes != "" ==> f.notes == job.notes.value)
    ensures f.status == (if Truthy(job.status) then job.status.value else StatusApplied) && f.status != ""
    ensures f.applicationDate == DateInput(job.applicationDate, isoOf)
  {
    Form(OrElse(job.title, ""), OrElse(job.company, ""), OrElse(job.location, ""),
         OrElse(job.status, StatusApplied), OrElse(job.salary, ""), OrElse(job.description, ""),
         DateInput(job.applicationDate, isoOf), OrElse(job.jobUrl, ""), OrElse(job.notes, ""))
  }

  /** The page state once `loadJob` has finished: `loading` is false again. */
  datatype Loaded = Loaded(form: Form, error: Option<string>)

  /** `loadJob` for the route's `id`. `getJobById` throws when the store's `jobs` is not an
      array, which shows "Failed to load job data"; an unknown id shows "Job not found";
      neither touches the form. */
  function LoadJob(s: R.JobState, id: string, isoOf: int -> string): (r: Loaded)
    ensures s.jobs.NotArray? ==> r == Loaded(EmptyForm, Some(LoadFailed))
    ensures s.jobs.JobArray? && (forall i :: 0 <= i < |s.jobs.items| ==> s.jobs.items[i]._id != id) ==>
              r == Loaded(EmptyForm, Some(NotFound))
    ensures r.error.None? <==> s.jobs.JobArray? && exists i :: 0 <= i < |s.jobs.items| && s.jobs.items[i]._id == id
    ensures r.error.None? ==> s.jobs.JobArray? && R.Find(s.jobs.items, id).Some?
                              && r.form == Prefill(R.Find(s.jobs.items, id).value, isoOf)
  {
    match R.GetJobById(s, id)
    case Thrown(_) => Loaded(EmptyForm, Some(LoadFailed))
    case Ok(None) => Loaded(EmptyForm, Some(NotFound))
    case Ok(Some(job)) => Loaded(Prefill(job, isoOf), None)
  }

  /** The route of a record's detail page. */
  function DetailRoute(id: string): (r: string)
    ensures |r| == |id| + 6 && r[..6] == "/jobs/" && r[6..] == id
  {
    "/jobs/" + id
  }

  /** The effect of one submit: the alert shown, the route navigated to, the body sent to
      `updateJob`, and the job store afterwards. */
  datatype Outcome = Outcome(alert: Option<string>, navigateTo: Option<string>, sent: Option<Payload>, store: R.JobState)

  /** `handleSubmit` on the page for record `id`. `reply` is how `jobService.updateJob`
      settles: its `data.job`, or a rejection. The detail page is opened only once the
      update has succeeded; any failure, including the date conversion, shows one alert. */
  function HandleSubmit(f: Form, id: string, toIso: string -> Option<string>, s: R.JobState,
                        reply: Reply<Option<Job>>): (r: Outcome)
    ensures r.sent.Some? <==> Submit(f, toIso).Send?
    ensures r.sent.Some? ==> r.sent.value == Submit(f, toIso).payload && r.store == JobContext.UpdateJob(s, reply).state
    ensures r.sent.None? ==> r.navigateTo == None && r.store == s
    ensures Submit(f, toIso).Invalid? ==> r.alert == Some(Submit(f, toIso).alert)
    ensures r.navigateTo.Some? <==> r.sent.Some? && reply.Resolved? && reply.value.Some?
    ensures r.navigateTo.Some? ==> r.navigateTo.value == DetailRoute(id) && r.alert == None
    ensures r.sent.Some? && r.navigateTo.None? ==> r.alert == Some(UpdateFailedAlert)
    ensures Submit(f, toIso).DateConversionFailed? ==> r.alert == Some(UpdateFailedAlert)
  {
    match Submit(f, toIso)
    case Invalid(message) => Outcome(Some(message), None, None, s)
    case DateConversionFailed => Outcome(Some(UpdateFailedAlert), None, None, s)
    case Send(body) =>
      var call := JobContext.UpdateJob(s, reply);
      if call.result.Ok? then Outcome(None, Some(DetailRoute(id)), Some(body), call.state)
      else Outcome(Some(UpdateFailedAlert), None, Some(body), call.state)
  }

  /** A stored text value with no surrounding whitespace, or no value at all. */
  predicate Clean(v: Option<string>) {
    v.Some? ==> IsTrimmed(v.value)
  }

  /** The value the body carries for an optional field that was sent back unedited. */
  function Resent(v: Option<string>): (r: Option<string>)
    ensures r.Some? <==> v.Some? && v.value != ""
    ensures r.Some? ==> r == v
  {
    if Truthy(v) then v else None
  }

  /** Saving a loaded record without editing it sends its own text back: the title and
      company as stored, the status (or "applied"), and each optional field exactly when
      the record has a non-empty value for it. */
  lemma UneditedSaveKeepsRecord(job: Job, isoOf: int -> string, toIso: string -> Option<string>)
    requires Clean(job.title) && Clean(job.company) && Clean(job.location) && Clean(job.salary)
    requires Clean(job.description) && Clean(job.jobUrl) && Clean(job.notes)
    requires Submit(Prefill(job, isoOf), toIso).Send?
    ensures var p := Submit(Prefill(job, isoOf), toIso).payload;
            && Some(p.title) == job.title && Some(p.company) == job.company
            && p.status == OrElse(job.status, StatusApplied)
            && p.location == Resent(job.location) && p.salary == Resent(job.salary)
            && p.description == Resent(job.description) && p.jobUrl == Resent(job.jobUrl)
            && p.notes == Resent(job.notes)
  {
    CleanTrims(job.title);
    CleanTrims(job.company);
    CleanTrims(job.location);
    CleanTrims(job.salary);
    CleanTrims(job.description);
    CleanTrims(job.jobUrl);
    CleanTrims(job.notes);
  }

  /** Pre-filling a clean value and trimming it gives the value back. */
  lemma CleanTrims(v: Option<string>)
    requires Clean(v)
    ensures Trim(OrElse(v, "")) == OrElse(v, "")
    ensures Optional(OrElse(v, "")) == Resent(v)
  {
    if Truthy(v) {
      TrimTrimmed(v.value);
    }
  }

  /** A record without a date cannot be saved until a date is entered. */
  lemma UndatedRecordNeedsDate(job: Job, isoOf: int -> string, toIso: string -> Option<string>)
    requires job.applicationDate.None?
    requires Truthy(job.title) && !AllWhitespace(job.title.value)
    requires Truthy(job.company) && !AllWhitespace(job.company.value)
    ensures Submit(Prefill(job, isoOf), toIso) == Invalid(DateAlert)
  {
  }
}

=== FILE: environment.dfy ===
/** Choosing the backend from the page's hostname, and the derived configuration flags. */
module Environment {
  import opened Values
  import opened Text

  const RenderBackendUrl := "https://job-tracker-webb.onrender.com/api"
  const LocalBackendUrl := "http://localhost:5000/api"

  const VercelSuffix := "vercel.app"
  const VercelProject := "job-tracker-web-f.vercel.app"
  const VercelPreview := "job-tracker-web-k1muubq57-angemarie-coders-projects.vercel.app"

  predicate IsVercel(hostname: string) {
    Includes(hostname, VercelSuffix) || Includes(hostname, VercelProject) || Includes(hostname, VercelPreview)
  }

  predicate IsLoopback(hostname: string) {
    hostname == "localhost" || hostname == "127.0.0.1"
  }

  predicate IsOtherHosting(hostname: string) {
    Includes(hostname, "netlify.app") || Includes(hostname, "github.io") || Includes(hostname, "custom-domain.com")
  }

  /** `getApiUrl`, given the hostname and `REACT_APP_API_URL`. */
  function GetApiUrl(hostname: string, envApiUrl: Option<string>): (url: string)
    ensures url == RenderBackendUrl || url == LocalBackendUrl || (Truthy(envApiUrl) && url == envApiUrl.value)
  {
    if IsVercel(hostname) then RenderBackendUrl
    else if IsLoopback(hostname) then LocalBackendUrl
    else if IsOtherHosting(hostname) then RenderBackendUrl
    else OrElse(envApiUrl, LocalBackendUrl)
  }

  /** The two longer Vercel names both contain the short one, so only the first test matters. */
  lemma VercelNamesSubsumed(hostname: string)
    ensures IsVercel(hostname) <==> Includes(hostname, VercelSuffix)
  {
    IncludesAt(VercelProject, VercelSuffix, 18);
    IncludesAt(VercelPreview, VercelSuffix, |VercelPreview| - |VercelSuffix|);
    if Includes(hostname, VercelProject) {
      IncludesTransitive(hostname, VercelProject, VercelSuffix);
    }
    if Includes(hostname, VercelPreview) {
      IncludesTransitive(hostname, VercelPreview, VercelSuffix);
    }
  }

  /** How each class of hostname is served. */
  lemma ApiUrlByHost(hostname: string, envApiUrl: Option<string>)
    ensures Includes(hostname, VercelSuffix) ==> GetApiUrl(hostname, envApiUrl) == RenderBackendUrl
    ensures !Includes(hostname, VercelSuffix) && IsLoopback(hostname) ==> GetApiUrl(hostname, envApiUrl) == LocalBackendUrl
    ensures !Includes(hostname, VercelSuffix) && !IsLoopback(hostname) && IsOtherHosting(hostname) ==>
              GetApiUrl(hostname, envApiUrl) == RenderBackendUrl
    ensures !Includes(hostname, VercelSuffix) && !IsLoopback(hostname) && !IsOtherHosting(hostname) ==>
              GetApiUrl(hostname, envApiUrl) == OrElse(envApiUrl, LocalBackendUrl)
  {
    VercelNamesSubsumed(hostname);
  }

  datatype Config = Config(apiUrl: string, environment: string, isLocal: bool, isProduction: bool)

  /** The exported `config` object. */
  function MakeConfig(hostname: string, envApiUrl: Option<string>): (c: Config)
    ensures c.apiUrl == GetApiUrl(hostname, envApiUrl)
    ensures c.environment == "development" <==> hostname == "localhost"
    ensures c.environment == "development" || c.environment == "production"
    ensures c.isLocal <==> IsLoopback(hostname)
  {
    Config(
      GetApiUrl(hostname, envApiUrl),
      if hostname == "localhost" then "development" else "production",
      IsLoopback(hostname),
      Includes(hostname, VercelSuffix) || Includes(hostname, "netlify.app") || Includes(hostname, "github.io")
      || Includes(hostname, VercelProject))
  }

  /** `127.0.0.1` is local but reported as production. */
  lemma LoopbackAddressIsProduction(envApiUrl: Option<string>)
    ensures var c := MakeConfig("127.0.0.1", envApiUrl);
            c.isLocal && c.environment == "production" && c.apiUrl == LocalBackendUrl
  {
    assert !IsVercel("127.0.0.1") by {
      NotIncludesLonger("127.0.0.1", VercelSuffix);
      NotIncludesLonger("127.0.0.1", VercelProject);
      NotIncludesLonger("127.0.0.1", VercelPreview);
    }
  }

  lemma {:induction false} NotIncludesLonger(s: string, sub: string)
    requires |sub| > |s|
    ensures !Includes(s, sub)
    decreases |s|
  {
    if s != [] {
      NotIncludesLonger(s[1..], sub);
    }
  }

  /** `isProduction` holds for the Vercel, Netlify and GitHub Pages hosts, and not for the
      custom domain, which nevertheless gets the Render backend. */
  lemma ProductionHosts(hostname: string, envApiUrl: Option<string>)
    ensures MakeConfig(hostname, envApiUrl).isProduction <==>
              Includes(hostname, VercelSuffix) || Includes(hostname, "netlify.app") || Includes(hostname, "github.io")
  {
    VercelNamesSubsumed(hostname);
  }

  lemma CustomDomainNotProduction(envApiUrl: Option<string>)
    ensures var c := MakeConfig(CustomDomain, envApiUrl);
            !c.isProduction && c.apiUrl == RenderBackendUrl
  {
    CustomDomainFacts();
    VercelNamesSubsumed(CustomDomain);
  }

  const CustomDomain := "custom-domain.com"

  /** What the hostname tests find in the custom domain. Each fact about the literal is a
      lemma of its own, which keeps every proof small. */
  lemma CustomDomainFacts()
    ensures !Includes(CustomDomain, VercelSuffix)
    ensures !Includes(CustomDomain, "netlify.app")
    ensures !Includes(CustomDomain, "github.io")
    ensures IsOtherHosting(CustomDomain) && !IsLoopback(CustomDomain)
  {
    CustomDomainNotVercel();
    CustomDomainNotNetlify();
    CustomDomainNotGithub();
    CustomDomainIsOtherHosting();
    CustomDomainNotLoopback();
  }
  lemma CustomDomainNotVercel()
    ensures !Includes(CustomDomain, VercelSuffix)
  {
    NoOccurrence(CustomDomain, VercelSuffix, 'v');
  }
  lemma CustomDomainNotNetlify()
    ensures !Includes(CustomDomain, "netlify.app")
  {
    NoOccurrence(CustomDomain, "netlify.app", 'y');
  }
  lemma CustomDomainNotGithub()
    ensures !Includes(CustomDomain, "github.io")
  {
    NoOccurrence(CustomDomain, "github.io", 'g');
  }
  lemma CustomDomainNotLoopback()
    ensures !IsLoopback(CustomDomain)
  {
  }
  lemma CustomDomainIsOtherHosting()
    ensures IsOtherHosting(CustomDomain)
  {
    IncludesAt(CustomDomain, CustomDomain, 0);
  }

  /** A string cannot contain a substring holding a character it lacks. */
  lemma NoOccurrence(s: string, sub: string, c: char)
    requires c in sub && c !in s
    ensures !Includes(s, sub)
  {
    if Includes(s, sub) {
      var i := IncludesOffset(s, sub);
    }
  }
}

=== FILE: job_context.dfy ===
/** The job context's asynchronous operations, each written as the sequence of actions it
    dispatches given the outcome of its network call. Errors arrive as the response
    interceptor left them (see module Api). */
module JobContext {
  import opened Values
  import opened Jobs
  import opened Seqs
  import R = JobReducer
  import Api

  /** The store after an operation, and what the operation returned or threw. */
  datatype Call<+T> = Call(state: R.JobState, result: Result<T>)

  const NoJobData := "No job data received from update"

  /** Minimum milliseconds between two refreshes. */
  const RefreshInterval := 2000

  /** `data.data?.jobs || []`, where `field` is `data.data?.jobs` (None when absent or falsy). */
  function JobsOrEmpty(field: Option<JobsValue>): (r: JobsValue)
    ensures field.Some? ==> r == field.value
    ensures field.None? ==> r == JobArray([])
  {
    field.GetOr(JobArray([]))
  }

  /** `addJob`: appends whatever `createJob` resolved to. On failure the error message is
      the interceptor's `userMessage` (or a fixed text) for a 429, and `error.message`
      otherwise; the error is rethrown. `loading` ends false either way. */
  function AddJob(s: R.JobState, created: Reply<Job>): (r: Call<Job>)
    ensures !r.state.loading && r.state.stats == s.stats
    ensures created.Resolved? ==>
              && r.result == Ok(created.value)
              && r.state.error == s.error
              && r.state.jobs == JobArray(SafeJobs(s.jobs) + [created.value])
    ensures created.Rejected? ==>
              && r.result == Thrown(created.error)
              && r.state.jobs == s.jobs
              && r.state.error == Some(if StatusOf(created.error) == Some(429)
                                      then OrElse(created.error.userMessage, Api.TooManyRequests)
                                      else created.error.message)
  {
    var s1 := R.Reduce(s, R.SetLoading(true));
    match created
    case Resolved(job) =>
      var s2 := R.Reduce(s1, R.AddJob(job));
      assert s2.jobs.items == SafeJobs(s.jobs) + [job];
      Call(R.Reduce(s2, R.SetLoading(false)), Ok(job))
    case Rejected(e) =>
      var message := if StatusOf(e) == Some(429) then OrElse(e.userMessage, Api.TooManyRequests) else e.message;
      Call(R.Reduce(R.Reduce(s1, R.SetError(message)), R.SetLoading(false)), Thrown(e))
  }

  /** `updateJob`: `reply` resolves to `response.data?.job` (None when absent). A missing
      record raises "No job data received from update" and dispatches no UPDATE_JOB. */
  function UpdateJob(s: R.JobState, reply: Reply<Option<Job>>): (r: Call<Job>)
    ensures !r.state.loading && r.state.stats == s.stats
    ensures reply.Resolved? && reply.value.Some? ==>
              && r.result == Ok(reply.value.value)
              && r.state.error == s.error
              && r.state.jobs == R.Reduce(s, R.UpdateJob(reply.value.value)).jobs
    ensures reply.Resolved? && reply.value.None? ==>
              && r.result == Thrown(ClientError(NoJobData))
              && r.state.jobs == s.jobs
              && r.state.error == Some(NoJobData)
    ensures reply.Rejected? ==>
              && r.result == Thrown(reply.error)
              && r.state.jobs == s.jobs
              && r.state.error == Some(reply.error.message)
  {
    var s1 := R.Reduce(s, R.SetLoading(true));
    match reply
    case Resolved(Some(job)) =>
      Call(R.Reduce(R.Reduce(s1, R.UpdateJob(job)), R.SetLoading(false)), Ok(job))
    case Resolved(None) =>
      var e := ClientError(NoJobData);
      Call(R.Reduce(R.Reduce(s1, R.SetError(e.message)), R.SetLoading(false)), Thrown(e))
    case Rejected(e) =>
      Call(R.Reduce(R.Reduce(s1, R.SetError(e.message)), R.SetLoading(false)), Thrown(e))
  }

  /** `deleteJob`: removes the records with `_id == id` once the server has confirmed. */
  function DeleteJob(s: R.JobState, id: string, reply: Reply<()>): (r: Call<()>)
    ensures !r.state.loading && r.state.stats == s.stats
    ensures reply.Resolved? ==>
              && r.result == Ok(())
              && r.state.error == s.error
              && r.state.jobs == R.Reduce(s, R.DeleteJob(id)).jobs
    ensures reply.Rejected? ==>
              && r.result == Thrown(reply.error)
              && r.state.jobs == s.jobs
              && r.state.error == Some(reply.error.message)
  {
    var s1 := R.Reduce(s, R.SetLoading(true));
    match reply
    case Resolved(_) =>
      Call(R.Reduce(R.Reduce(s1, R.DeleteJob(id)), R.SetLoading(false)), Ok(()))
    case Rejected(e) =>
      Call(R.Reduce(R.Reduce(s1, R.SetError(e.message)), R.SetLoading(false)), Thrown(e))
  }

  /** The fetch that runs once when the provider mounts. It does not look at the session,
      keeps no retry count and treats a 401 like any other failure. The statistics are
      requested only after the jobs arrived. */
  function InitialFetch(s: R.JobState, jobsReply: Reply<Option<JobsValue>>, statsReply: Reply<R.StatsResponse>): (r: R.JobState)
    ensures !r.loading
    ensures jobsReply.Rejected? ==>
              r.jobs == s.jobs && r.stats == s.stats && r.error == Some(jobsReply.error.message)
    ensures jobsReply.Resolved? ==> r.jobs == JobsOrEmpty(jobsReply.value)
    ensures jobsReply.Resolved? && statsReply.Resolved? ==> r.stats == Some(statsReply.value) && r.error == s.error
    ensures jobsReply.Resolved? && statsReply.Rejected? ==>
              r.stats == s.stats && r.error == Some(statsReply.error.message)
  {
    var s1 := R.Reduce(s, R.SetLoading(true));
    var s2 := match jobsReply
      case Rejected(e) => R.Reduce(s1, R.SetError(e.message))
      case Resolved(field) =>
        var withJobs := R.Reduce(s1, R.SetJobs(JobsOrEmpty(field)));
        match statsReply
        case Resolved(body) => R.Reduce(withJobs, R.SetStats(Some(body)))
        case Rejected(e) => R.Reduce(withJobs, R.SetError(e.message));
    R.Reduce(s2, R.SetLoading(false))
  }

  /** The store and the debounce timestamp after `refreshJobs`, and whether it fetched. */
  datatype Refresh = Refresh(state: R.JobState, lastRefreshTime: int, fetched: bool)

  /** `refreshJobs` at time `now`: skipped while loading or within `RefreshInterval` of the
      recorded time; otherwise it records `now` before fetching, replaces `jobs` and clears
      `stats` on success, and keeps `jobs` and sets `error` on failure. The early returns sit
      inside the `try`, so the `finally` clears `loading` on a skipped call as well. */
  function RefreshJobs(s: R.JobState, lastRefreshTime: int, now: int, reply: Reply<Option<JobsValue>>): (r: Refresh)
    ensures r.fetched <==> !s.loading && now - lastRefreshTime >= RefreshInterval
    ensures !r.state.loading
    ensures !r.fetched ==> r.state == s.(loading := false) && r.lastRefreshTime == lastRefreshTime
    ensures r.fetched ==> r.lastRefreshTime == now
    ensures r.fetched && reply.Resolved? ==>
              r.state.jobs == JobsOrEmpty(reply.value) && r.state.stats == None && r.state.error == s.error
    ensures r.fetched && reply.Rejected? ==>
              r.state.jobs == s.jobs && r.state.stats == s.stats && r.state.error == Some(reply.error.message)
  {
    if s.loading then Refresh(R.Reduce(s, R.SetLoading(false)), lastRefreshTime, false)
    else if now - lastRefreshTime < RefreshInterval then Refresh(R.Reduce(s, R.SetLoading(false)), lastRefreshTime, false)
    else
      var s1 := R.Reduce(s, R.SetLoading(true));
      var s2 := match reply
        case Resolved(field) => R.Reduce(R.Reduce(s1, R.SetJobs(JobsOrEmpty(field))), R.SetStats(None))
        case Rejected(e) => R.Reduce(s1, R.SetError(e.message));
      Refresh(R.Reduce(s2, R.SetLoading(false)), now, true)
  }

  /** Two refreshes less than `RefreshInterval` apart fetch at most once, even when the
      first one failed: the time is recorded before the fetch. */
  lemma RefreshDebounced(s: R.JobState, last: int, t1: int, t2: int,
                         reply1: Reply<Option<JobsValue>>, reply2: Reply<Option<JobsValue>>)
    requires t1 <= t2 < t1 + RefreshInterval
    ensures var first := RefreshJobs(s, last, t1, reply1);
            !(first.fetched && RefreshJobs(first.state, first.lastRefreshTime, t2, reply2).fetched)
  {
  }

  /** A refresh skipped because a load is in flight still clears the in-progress flag, so a
      later call outside the debounce interval fetches even if that load has not finished. */
  lemma SkippedRefreshClearsGuard(s: R.JobState, last: int, t1: int, t2: int,
                                  reply1: Reply<Option<JobsValue>>, reply2: Reply<Option<JobsValue>>)
    requires s.loading && t2 - last >= RefreshInterval
    ensures var first := RefreshJobs(s, last, t1, reply1);
            !first.fetched && !first.state.loading
            && RefreshJobs(first.state, first.lastRefreshTime, t2, reply2).fetched
  {
  }

  /** The mount-time fetch and a refresh that fetches agree on what the jobs reply does to
      the collection and, when it fails, to the error; both end with `loading` false. */
  lemma InitialFetchAgreesWithRefresh(s: R.JobState, last: int, now: int,
                                      jobsReply: Reply<Option<JobsValue>>, statsReply: Reply<R.StatsResponse>)
    requires !s.loading && now - last >= RefreshInterval
    ensures var initial := InitialFetch(s, jobsReply, statsReply);
            var refresh := RefreshJobs(s, last, now, jobsReply);
            && refresh.fetched && !initial.loading && !refresh.state.loading
            && initial.jobs == refresh.state.jobs
            && (jobsReply.Rejected? ==> initial == refresh.state)
  {
  }

  /** `hasStats` after a fetch: the mount-time fetch makes it report exactly whether the
      statistics response carried `data.stats`, and a successful refresh always turns it off,
      so `getStats` falls back to counting the jobs. */
  lemma HasStatsAfterFetches(s: R.JobState, last: int, now: int,
                             jobsReply: Reply<Option<JobsValue>>, statsReply: Reply<R.StatsResponse>)
    ensures jobsReply.Resolved? && statsReply.Resolved? ==>
              (R.HasStats(InitialFetch(s, jobsReply, statsReply))
               <==> statsReply.value.data.Some? && statsReply.value.data.value.stats.Some?)
    ensures var r := RefreshJobs(s, last, now, jobsReply);
            r.fetched && jobsReply.Resolved? ==>
              !R.HasStats(r.state) && R.GetStats(r.state) == R.FallbackStats(SafeJobs(r.state.jobs))
  {
  }

  /** A record whose `_id` is new is found by `getJobById` after it is added. */
  lemma AddThenFind(s: R.JobState, job: Job)
    requires forall i :: 0 <= i < |SafeJobs(s.jobs)| ==> SafeJobs(s.jobs)[i]._id != job._id
    ensures R.GetJobById(AddJob(s, Resolved(job)).state, job._id) == Ok(Some(job))
  {
    var items := AddJob(s, Resolved(job)).state.jobs.items;
    assert items[|items| - 1] == job;
  }

  /** Deleting a record that was just added with a new `_id` restores the collection. */
  lemma {:induction false} DeleteUndoesFreshAdd(s: R.JobState, job: Job)
    requires forall i :: 0 <= i < |SafeJobs(s.jobs)| ==> SafeJobs(s.jobs)[i]._id != job._id
    ensures R.Reduce(R.Reduce(s, R.AddJob(job)), R.DeleteJob(job._id)).jobs == JobArray(SafeJobs(s.jobs))
  {
    var prev := SafeJobs(s.jobs);
    assert SafeJobs(R.Reduce(s, R.AddJob(job)).jobs) == prev + [job];
    FreshFilteredOut(prev, job);
  }

  /** Filtering out the `_id` of a record appended with a new `_id` leaves what came before. */
  lemma FreshFilteredOut(prev: seq<Job>, job: Job)
    requires forall i :: 0 <= i < |prev| ==> prev[i]._id != job._id
    ensures Filter(prev + [job], IdIsNot(job._id)) == prev
  {
    FilterAppend(prev, [job], IdIsNot(job._id));
    FilterKeepsAll(prev, IdIsNot(job._id));
    FilterSingleton(job, IdIsNot(job._id));
    assert prev + [] == prev;
  }

  /** After a confirmed delete no record carries that `_id`, and the collection shrank by
      exactly the number of records that did (one, for unique ids). */
  lemma DeleteThenFind(s: R.JobState, id: string, reply: Reply<()>)
    requires reply.Resolved?
    ensures R.GetJobById(DeleteJob(s, id, reply).state, id) == Ok(None)
    ensures |DeleteJob(s, id, reply).state.jobs.items| == |SafeJobs(s.jobs)| - |Filter(SafeJobs(s.jobs), IdIs(id))|
  {
    FilterPartition(SafeJobs(s.jobs), IdIs(id), IdIsNot(id));
  }

  /** Deleting twice is deleting once. */
  lemma DeleteIdempotent(s: R.JobState, id: string)
    ensures R.Reduce(R.Reduce(s, R.DeleteJob(id)), R.DeleteJob(id)) == R.Reduce(s, R.DeleteJob(id))
  {
  }

  /** Applying the same update twice is applying it once; afterwards `getJobById` returns the
      payload exactly when some record had its `_id`. */
  lemma UpdateIdempotentAndFound(s: R.JobState, job: Job)
    ensures R.Reduce(R.Reduce(s, R.UpdateJob(job)), R.UpdateJob(job)) == R.Reduce(s, R.UpdateJob(job))
    ensures var found := R.GetJobById(R.Reduce(s, R.UpdateJob(job)), job._id);
            found == Ok(Some(job)) <==> exists i :: 0 <= i < |SafeJobs(s.jobs)| && SafeJobs(s.jobs)[i]._id == job._id
  {
    var once := R.Reduce(s, R.UpdateJob(job)).jobs.items;
    var twice := R.Reduce(R.Reduce(s, R.UpdateJob(job)), R.UpdateJob(job)).jobs.items;
    assert twice == once;
    if exists i :: 0 <= i < |SafeJobs(s.jobs)| && SafeJobs(s.jobs)[i]._id == job._id {
      var f := R.Find(once, job._id);
      var k :| 0 <= k < |once| && once[k] == f.value && f.value._id == job._id;
      assert once[k] == job;
    }
  }

  /** Adding a record raises the fallback total by one, raises the count of its own status
      by one, and leaves the other four counts alone. */
  lemma AddJobCounts(s: R.JobState, job: Job)
    ensures var before := R.FallbackStats(SafeJobs(s.jobs));
            var after := R.FallbackStats(SafeJobs(R.Reduce(s, R.AddJob(job)).jobs));
            && after.total == before.total + 1
            && after.applied == before.applied + (if job.status == Some(StatusApplied) then 1 else 0)
            && after.interviewing == before.interviewing + (if job.status == Some(StatusInterviewing) then 1 else 0)
            && after.offered == before.offered + (if job.status == Some(StatusOffered) then 1 else 0)
            && after.rejected == before.rejected + (if job.status == Some(StatusRejected) then 1 else 0)
            && after.withdrawn == before.withdrawn + (if job.status == Some(StatusWithdrawn) then 1 else 0)
  {
    var prev := SafeJobs(s.jobs);
    assert SafeJobs(R.Reduce(s, R.AddJob(job)).jobs) == prev + [job];
    assert R.Statuses(prev + [job]) == R.Statuses(prev) + [job.status];
  }

  /** A rate-limited create, as the interceptor delivers it, always shows the
      "Too many requests" message and leaves the collection alone. */
  lemma RateLimitedAdd(s: R.JobState, storage: map<string, string>, e: JsError)
    requires StatusOf(e) == Some(429)
    ensures var r := AddJob(s, Rejected(Api.OnResponseError(storage, e).error));
            r.state.error == Some(Api.TooManyRequests) && r.state.jobs == s.jobs
  {
  }
}

=== FILE: job_reducer.dfy ===
/** The job-collection store: its state, the reducer that applies dispatched actions,
    and the read-only selectors the context exposes. */
module JobReducer {
  import opened Values
  import opened Jobs
  import opened Seqs

  /** The `data` object of the `/analytics/stats` response body. */
  datatype StatsData = StatsData(stats: Option<Counts>)

  /** The `/analytics/stats` response body, stored verbatim by SET_STATS. */
  datatype StatsResponse = StatsResponse(data: Option<StatsData>)

  datatype JobState = JobState(jobs: JobsValue, loading: bool, error: Option<string>, stats: Option<StatsResponse>)

  const InitialState := JobState(JobArray([]), false, None, None)

  datatype JobAction =
    | SetLoading(loading: bool)
    | SetError(message: string)
    | SetJobs(jobs: JobsValue)
    | AddJob(job: Job)
    | UpdateJob(job: Job)
    | DeleteJob(id: string)
    | SetStats(stats: Option<StatsResponse>)
    | OtherAction(kind: string)

  /** `jobs.map(job => job._id === updated._id ? updated : job)` */
  function ReplaceById(jobs: seq<Job>, updated: Job): (r: seq<Job>)
    ensures |r| == |jobs|
  {
    seq(|jobs|, i requires 0 <= i < |jobs| => if jobs[i]._id == updated._id then updated else jobs[i])
  }

  /** `jobReducer`. ADD_JOB, UPDATE_JOB and DELETE_JOB first coerce a non-array `jobs` to `[]`. */
  function Reduce(s: JobState, a: JobAction): (r: JobState)
    // the four setters change only their own field
    ensures a.SetLoading? ==> r.loading == a.loading && r.jobs == s.jobs && r.error == s.error && r.stats == s.stats
    ensures a.SetError? ==> r.error == Some(a.message) && r.jobs == s.jobs && r.loading == s.loading && r.stats == s.stats
    ensures a.SetJobs? ==> r.jobs == a.jobs && r.loading == s.loading && r.error == s.error && r.stats == s.stats
    ensures a.SetStats? ==> r.stats == a.stats && r.jobs == s.jobs && r.loading == s.loading && r.error == s.error
    // the collection actions change only `jobs`, and always leave an array there
    ensures a.AddJob? || a.UpdateJob? || a.DeleteJob? ==>
              r.jobs.JobArray? && r.loading == s.loading && r.error == s.error && r.stats == s.stats
    // ADD_JOB appends the record after all earlier ones
    ensures a.AddJob? ==>
              var prev := SafeJobs(s.jobs);
              |r.jobs.items| == |prev| + 1 && r.jobs.items[..|prev|] == prev && r.jobs.items[|prev|] == a.job
    // UPDATE_JOB keeps length and order, replacing exactly the records with the payload's `_id`
    ensures a.UpdateJob? ==>
              var prev := SafeJobs(s.jobs);
              |r.jobs.items| == |prev|
              && forall i :: 0 <= i < |prev| ==>
                   r.jobs.items[i] == (if prev[i]._id == a.job._id then a.job else prev[i])
    // DELETE_JOB keeps, in order, exactly the records whose `_id` differs
    ensures a.DeleteJob? ==> KeepsAllBut(r.jobs.items, SafeJobs(s.jobs), a.id)
    // any other action leaves the state as it was
    ensures a.OtherAction? ==> r == s
  {
    match a
    case SetLoading(b) => s.(loading := b)
    case SetError(m) => s.(error := Some(m))
    case SetJobs(v) => s.(jobs := v)
    case AddJob(j) => s.(jobs := JobArray(SafeJobs(s.jobs) + [j]))
    case UpdateJob(j) => s.(jobs := JobArray(ReplaceById(SafeJobs(s.jobs), j)))
    case DeleteJob(id) =>
      var prev := SafeJobs(s.jobs);
      DeleteFacts(prev, id);
      s.(jobs := JobArray(Filter(prev, IdIsNot(id))))
    case SetStats(st) => s.(stats := st)
    case OtherAction(_) => s
  }

  /** `r` is `prev` without its records carrying `_id == id`: no survivor has that `_id`,
      every other record survives as often as it occurred, in its original order, and
      nothing changes when no record matches. */
  ghost predicate KeepsAllBut(r: seq<Job>, prev: seq<Job>, id: string) {
    && (forall i :: 0 <= i < |r| ==> r[i]._id != id)
    && (forall i :: 0 <= i < |prev| && prev[i]._id != id ==> prev[i] in r)
    && (forall x :: multiset(r)[x] == if x._id != id then multiset(prev)[x] else 0)
    && IsSubsequence(r, prev)
    && ((forall i :: 0 <= i < |prev| ==> prev[i]._id != id) ==> r == prev)
  }

  /** `filter` by a differing `_id` keeps exactly the other records. */
  lemma DeleteFacts(prev: seq<Job>, id: string)
    ensures KeepsAllBut(Filter(prev, IdIsNot(id)), prev, id)
  {
    forall x
      ensures multiset(Filter(prev, IdIsNot(id)))[x] == if x._id != id then multiset(prev)[x] else 0
    {
      FilterMultiplicity(prev, IdIsNot(id), x);
    }
    FilterSubsequence(prev, IdIsNot(id));
    if forall i :: 0 <= i < |prev| ==> prev[i]._id != id {
      FilterKeepsAll(prev, IdIsNot(id));
    }
  }

  /** `!!(state.stats && state.stats.data && state.stats.data.stats)` */
  predicate HasStats(s: JobState) {
    s.stats.Some? && s.stats.value.data.Some? && s.stats.value.data.value.stats.Some?
  }

  /** The statuses of `jobs`, in order. */
  function Statuses(jobs: seq<Job>): (r: seq<Option<string>>)
    ensures |r| == |jobs|
    ensures forall i :: 0 <= i < |jobs| ==> r[i] == jobs[i].status
  {
    seq(|jobs|, i requires 0 <= i < |jobs| => jobs[i].status)
  }

  /** `jobs.filter(job => job.status === status).length` */
  function CountStatus(jobs: seq<Job>, status: string): nat {
    |Filter(jobs, HasStatus(status))|
  }

  /** The status is not one of the five known ones. */
  function UnknownStatus(): Job -> bool {
    (job: Job) => !KnownStatus(job.status)
  }

  /** The statistics `getStats` derives from an array of jobs: the total, and for each
      known status the number of jobs carrying it. */
  function FallbackStats(jobs: seq<Job>): (c: Counts)
    ensures c.total == |jobs|
    ensures c.applied == multiset(Statuses(jobs))[Some(StatusApplied)]
    ensures c.interviewing == multiset(Statuses(jobs))[Some(StatusInterviewing)]
    ensures c.offered == multiset(Statuses(jobs))[Some(StatusOffered)]
    ensures c.rejected == multiset(Statuses(jobs))[Some(StatusRejected)]
    ensures c.withdrawn == multiset(Statuses(jobs))[Some(StatusWithdrawn)]
    ensures c.applied + c.interviewing + c.offered + c.rejected + c.withdrawn <= c.total
    ensures (forall i :: 0 <= i < |jobs| ==> KnownStatus(jobs[i].status)) ==>
              c.applied + c.interviewing + c.offered + c.rejected + c.withdrawn == c.total
    ensures jobs == [] ==> c == ZeroCounts
  {
    FallbackFacts(jobs);
    Counts(|jobs|, CountStatus(jobs, StatusApplied), CountStatus(jobs, StatusInterviewing), CountStatus(jobs, StatusOffered),
           CountStatus(jobs, StatusRejected), CountStatus(jobs, StatusWithdrawn))
  }

  /** The facts the fallback statistics rest on. */
  lemma FallbackFacts(jobs: seq<Job>)
    ensures CountStatus(jobs, StatusApplied) == multiset(Statuses(jobs))[Some(StatusApplied)]
    ensures CountStatus(jobs, StatusInterviewing) == multiset(Statuses(jobs))[Some(StatusInterviewing)]
    ensures CountStatus(jobs, StatusOffered) == multiset(Statuses(jobs))[Some(StatusOffered)]
    ensures CountStatus(jobs, StatusRejected) == multiset(Statuses(jobs))[Some(StatusRejected)]
    ensures CountStatus(jobs, StatusWithdrawn) == multiset(Statuses(jobs))[Some(StatusWithdrawn)]
    ensures CountStatus(jobs, StatusApplied) + CountStatus(jobs, StatusInterviewing) + CountStatus(jobs, StatusOffered)
            + CountStatus(jobs, StatusRejected) + CountStatus(jobs, StatusWithdrawn) + |Filter(jobs, UnknownStatus())| == |jobs|
    ensures (forall i :: 0 <= i < |jobs| ==> KnownStatus(jobs[i].status)) ==> Filter(jobs, UnknownStatus()) == []
  {
    CountStatusIsMultiplicity(jobs, StatusApplied);
    CountStatusIsMultiplicity(jobs, StatusInterviewing);
    CountStatusIsMultiplicity(jobs, StatusOffered);
    CountStatusIsMultiplicity(jobs, StatusRejected);
    CountStatusIsMultiplicity(jobs, StatusWithdrawn);
    StatusCountsPartition(jobs);
    if forall i :: 0 <= i < |jobs| ==> KnownStatus(jobs[i].status) {
      FilterNoneUnknown(jobs);
    }
  }

  /** The five status counts and the count of unknown statuses add up to the length. */
  lemma {:induction false} StatusCountsPartition(jobs: seq<Job>)
    ensures CountStatus(jobs, StatusApplied) + CountStatus(jobs, StatusInterviewing) + CountStatus(jobs, StatusOffered)
            + CountStatus(jobs, StatusRejected) + CountStatus(jobs, StatusWithdrawn) + |Filter(jobs, UnknownStatus())| == |jobs|
  {
    if jobs != [] {
      StatusCountsPartition(jobs[1..]);
      FilterLengthCons(jobs, HasStatus(StatusApplied));
      FilterLengthCons(jobs, HasStatus(StatusInterviewing));
      FilterLengthCons(jobs, HasStatus(StatusOffered));
      FilterLengthCons(jobs, HasStatus(StatusRejected));
      FilterLengthCons(jobs, HasStatus(StatusWithdrawn));
      FilterLengthCons(jobs, UnknownStatus());
    }
  }

  lemma {:induction false} FilterNoneUnknown(jobs: seq<Job>)
    requires forall i :: 0 <= i < |jobs| ==> KnownStatus(jobs[i].status)
    ensures Filter(jobs, UnknownStatus()) == []
  {
    if jobs != [] {
      FilterNoneUnknown(jobs[1..]);
    }
  }

  /** Each fallback count is the number of occurrences of that status among the jobs. */
  lemma {:induction false} CountStatusIsMultiplicity(jobs: seq<Job>, status: string)
    ensures CountStatus(jobs, status) == multiset(Statuses(jobs))[Some(status)]
  {
    if jobs != [] {
      CountStatusIsMultiplicity(jobs[1..], status);
      assert Statuses(jobs) == [jobs[0].status] + Statuses(jobs[1..]);
    }
  }

  /** `getStats`: the server's statistics verbatim when present, otherwise counts over
      `jobs`, with all zeros for a non-array `jobs`. */
  function GetStats(s: JobState): (c: Counts)
    ensures HasStats(s) ==> c == s.stats.value.data.value.stats.value
    ensures !HasStats(s) ==> c == FallbackStats(SafeJobs(s.jobs))
    ensures !HasStats(s) && s.jobs.NotArray? ==> c == ZeroCounts
  {
    if HasStats(s) then s.stats.value.data.value.stats.value
    else if !s.jobs.JobArray? then ZeroCounts
    else FallbackStats(s.jobs.items)
  }

  /** Server statistics win whatever the jobs are. */
  lemma ServerStatsIgnoreJobs(s: JobState, jobs: JobsValue)
    requires HasStats(s)
    ensures GetStats(s.(jobs := jobs)) == GetStats(s)
  {
  }

  /** `jobs.find(job => job._id === id)`: the first record with that `_id`. */
  function Find(jobs: seq<Job>, id: string): (r: Option<Job>)
    ensures r.None? <==> forall i :: 0 <= i < |jobs| ==> jobs[i]._id != id
    ensures r.Some? ==> exists k :: 0 <= k < |jobs| && jobs[k] == r.value && r.value._id == id
                                    && forall i :: 0 <= i < k ==> jobs[i]._id != id
  {
    if jobs == [] then None
    else if jobs[0]._id == id then Some(jobs[0])
    else
      var r := Find(jobs[1..], id);
      assert r.Some? ==> exists k :: 0 <= k < |jobs[1..]| && jobs[1..][k] == r.value && r.value._id == id
                                    && forall i :: 0 <= i < k ==> jobs[1..][i]._id != id;
      r
  }

  /** `getJobById`: `state.jobs.find(...)` throws when `jobs` is not an array. */
  function GetJobById(s: JobState, id: string): (r: Result<Option<Job>>)
    ensures s.jobs.NotArray? <==> r.Thrown?
    ensures r.Ok? ==> r.value == Find(s.jobs.items, id)
  {
    match s.jobs
    case NotArray => Thrown(ClientError(TypeErrorMessage))
    case JobArray(items) => Ok(Find(items, id))
  }

  /** `getJobsByStatus`: `state.jobs.filter(...)` throws when `jobs` is not an array. */
  function GetJobsByStatus(s: JobState, status: string): (r: Result<seq<Job>>)
    ensures s.jobs.NotArray? <==> r.Thrown?
    ensures r.Ok? ==> forall i :: 0 <= i < |r.value| ==> r.value[i].status == Some(status)
    ensures r.Ok? ==> forall i :: 0 <= i < |s.jobs.items| && s.jobs.items[i].status == Some(status) ==>
                        s.jobs.items[i] in r.value
    ensures r.Ok? ==> multiset(r.value) <= multiset(s.jobs.items)
  {
    match s.jobs
    case NotArray => Thrown(ClientError(TypeErrorMessage))
    case JobArray(items) => Ok(Filter(items, HasStatus(status)))
  }

  /** Without server statistics, each count is the size of the matching status list. */
  lemma StatsMatchStatusLists(s: JobState, status: string)
    requires !HasStats(s) && s.jobs.JobArray?
    ensures status == StatusApplied ==> GetStats(s).applied == |GetJobsByStatus(s, status).value|
    ensures status == StatusInterviewing ==> GetStats(s).interviewing == |GetJobsByStatus(s, status).value|
    ensures status == StatusOffered ==> GetStats(s).offered == |GetJobsByStatus(s, status).value|
    ensures status == StatusRejected ==> GetStats(s).rejected == |GetJobsByStatus(s, status).value|
    ensures status == StatusWithdrawn ==> GetStats(s).withdrawn == |GetJobsByStatus(s, status).value|
  {
  }
}

=== FILE: jobform.dfy ===
/** The job form shared by the add and edit pages: its nine text fields, the change
    handler, and the submit rule that validates the form and builds the request body. */
module JobForm {
  import opened Values
  import opened Text

  /** The form state; every field holds the text of its input. */
  datatype Form = Form(
    title: string,
    company: string,
    location: string,
    status: string,
    salary: string,
    description: string,
    applicationDate: string,
    jobUrl: string,
    notes: string)

  /** The `name` attributes of the form's inputs. */
  datatype FieldName = Title | Company | Location | Status | Salary | Description | ApplicationDate | JobUrl | Notes

  /** `formData[name]` */
  function Get(f: Form, name: FieldName): string {
    match name
    case Title => f.title
    case Company => f.company
    case Location => f.location
    case Status => f.status
    case Salary => f.salary
    case Description => f.description
    case ApplicationDate => f.applicationDate
    case JobUrl => f.jobUrl
    case Notes => f.notes
  }

  /** `handleChange`: `{ ...prev, [name]: value }`. */
  function SetField(f: Form, name: FieldName, value: string): (r: Form)
    ensures Get(r, name) == value
    ensures forall other :: other != name ==> Get(r, other) == Get(f, other)
  {
    match name
    case Title => f.(title := value)
    case Company => f.(company := value)
    case Location => f.(location := value)
    case Status => f.(status := value)
    case Salary => f.(salary := value)
    case Description => f.(description := value)
    case ApplicationDate => f.(applicationDate := value)
    case JobUrl => f.(jobUrl := value)
    case Notes => f.(notes := value)
  }

  /** Two forms that agree on every field are the same form. */
  lemma FormExtensionality(f: Form, g: Form)
    requires forall name :: Get(f, name) == Get(g, name)
    ensures f == g
  {
    assert Get(f, Title) == Get(g, Title) && Get(f, Company) == Get(g, Company);
    assert Get(f, Location) == Get(g, Location) && Get(f, Status) == Get(g, Status);
    assert Get(f, Salary) == Get(g, Salary) && Get(f, Description) == Get(g, Description);
    assert Get(f, ApplicationDate) == Get(g, ApplicationDate) && Get(f, JobUrl) == Get(g, JobUrl);
    assert Get(f, Notes) == Get(g, Notes);
  }

  /** Writing a field's own value back changes nothing, and of two writes to the same
      field only the later one is seen. */
  lemma SetFieldLaws(f: Form, name: FieldName, v: string, w: string)
    ensures SetField(f, name, Get(f, name)) == f
    ensures SetField(SetField(f, name, v), name, w) == SetField(f, name, w)
  {
    FormExtensionality(SetField(f, name, Get(f, name)), f);
    FormExtensionality(SetField(SetField(f, name, v), name, w), SetField(f, name, w));
  }

  /** Writes to two different fields commute. */
  lemma SetFieldCommutes(f: Form, m: FieldName, n: FieldName, v: string, w: string)
    requires m != n
    ensures SetField(SetField(f, m, v), n, w) == SetField(SetField(f, n, w), m, v)
  {
    FormExtensionality(SetField(SetField(f, m, v), n, w), SetField(SetField(f, n, w), m, v));
  }

  const TitleAlert := "Please enter a job title"
  const CompanyAlert := "Please enter a company name"
  const DateAlert := "Please select an application date"

  /** The request body `jobDataToSend`; an optional field that is None is not sent. */
  datatype Payload = Payload(
    title: string,
    company: string,
    status: string,
    applicationDate: string,
    location: Option<string>,
    salary: Option<string>,
    description: Option<string>,
    jobUrl: Option<string>,
    notes: Option<string>)

  /** `if (s.trim()) jobDataToSend.field = s.trim()`: the trimmed text, omitted when blank. */
  function Optional(s: string): (r: Option<string>)
    ensures r.None? <==> AllWhitespace(s)
    ensures r.Some? ==> r.value == Trim(s) && r.value != "" && IsTrimmed(r.value)
  {
    var t := Trim(s);
    if t != "" then Some(t) else None
  }

  /** What submitting the form does before any network call: alert one validation message,
      fail inside the `try` (the date text does not parse, so `toISOString` throws), or
      send a request body. */
  datatype Submission = Invalid(alert: string) | DateConversionFailed | Send(payload: Payload)

  /** The shared `handleSubmit` logic. `toIso` is `new Date(text).toISOString()`, None where
      it throws. */
  function Submit(f: Form, toIso: string -> Option<string>): (r: Submission)
    // the checks run in order title, company, date, and the first failure is the one shown
    ensures r == Invalid(TitleAlert) <==> AllWhitespace(f.title)
    ensures r == Invalid(CompanyAlert) <==> !AllWhitespace(f.title) && AllWhitespace(f.company)
    ensures r == Invalid(DateAlert) <==>
              !AllWhitespace(f.title) && !AllWhitespace(f.company) && f.applicationDate == ""
    ensures r.Invalid? ==> r.alert in {TitleAlert, CompanyAlert, DateAlert}
    ensures r.DateConversionFailed? <==>
              !AllWhitespace(f.title) && !AllWhitespace(f.company) && f.applicationDate != ""
              && toIso(f.applicationDate).None?
    // an accepted body: trimmed required fields, the status as selected, the converted date
    ensures r.Send? ==>
              && r.payload.title == Trim(f.title) && r.payload.title != ""
              && r.payload.company == Trim(f.company) && r.payload.company != ""
              && r.payload.status == f.status
              && Some(r.payload.applicationDate) == toIso(f.applicationDate)
    // each optional field is sent exactly when it is not blank, and then trimmed
    ensures r.Send? ==>
              && r.payload.location == Optional(f.location)
              && r.payload.salary == Optional(f.salary)
              && r.payload.description == Optional(f.description)
              && r.payload.jobUrl == Optional(f.jobUrl)
              && r.payload.notes == Optional(f.notes)
  {
    if Trim(f.title) == "" then Invalid(TitleAlert)
    else if Trim(f.company) == "" then Invalid(CompanyAlert)
    else if f.applicationDate == "" then Invalid(DateAlert)
    else match toIso(f.applicationDate)
      case None => DateConversionFailed
      case Some(iso) =>
        Send(Payload(Trim(f.title), Trim(f.company), f.status, iso,
                     Optional(f.location), Optional(f.salary), Optional(f.description),
                     Optional(f.jobUrl), Optional(f.notes)))
  }

  /** The form with every text field trimmed (status and date are left alone). */
  function Trimmed(f: Form): (r: Form)
    ensures forall name :: name != Status && name != ApplicationDate ==> IsTrimmed(Get(r, name))
    ensures r.status == f.status && r.applicationDate == f.applicationDate
  {
    f.(title := Trim(f.title), company := Trim(f.company), location := Trim(f.location),
       salary := Trim(f.salary), description := Trim(f.description), jobUrl := Trim(f.jobUrl),
       notes := Trim(f.notes))
  }

  /** Surrounding whitespace never matters to a submission: trimming the form first gives
      the same alert, failure or request body. */
  lemma SubmitIgnoresSurroundingWhitespace(f: Form, toIso: string -> Option<string>)
    ensures Submit(Trimmed(f), toIso) == Submit(f, toIso)
  {
    TrimIdempotent(f.title);
    TrimIdempotent(f.company);
    TrimIdempotent(f.location);
    TrimIdempotent(f.salary);
    TrimIdempotent(f.description);
    TrimIdempotent(f.jobUrl);
    TrimIdempotent(f.notes);
  }
}

=== FILE: joblist.dfy ===
/** The job list page's derived view: the store's jobs, searched, filtered by status and
    sorted, all on a copy so the store itself is left untouched. */
module JobList {
  import opened Values
  import opened Text
  import opened Jobs
  import opened Seqs

  /** The status filter's value that keeps every status. */
  const AllStatuses := "all"

  /** The sort keys the page offers. */
  const SortUpdatedAt := "updatedAt"
  const SortTitle := "title"
  const SortCompany := "company"
  const SortApplicationDate := "applicationDate"

  /** The search predicate on one job, with `fold` for `toLowerCase`. Reading the title of
      a job without one throws, and so does reading its company when the title does not
      match; the location is consulted only when it is present and non-empty. */
  function SearchMatches(job: Job, term: string, fold: string -> string): (r: Result<bool>)
    ensures r.Thrown? <==> job.title.None? || (!Includes(fold(job.title.value), fold(term)) && job.company.None?)
    ensures r == Ok(true) <==>
              || (job.title.Some? && Includes(fold(job.title.value), fold(term)))
              || (job.title.Some? && job.company.Some? && Includes(fold(job.company.value), fold(term)))
              || (job.title.Some? && job.company.Some? && Truthy(job.location)
                  && Includes(fold(job.location.value), fold(term)))
  {
    match job.title
    case None => Thrown(ClientError(TypeErrorMessage))
    case Some(title) =>
      if Includes(fold(title), fold(term)) then Ok(true)
      else match job.company
        case None => Thrown(ClientError(TypeErrorMessage))
        case Some(company) =>
          Ok(Includes(fold(company), fold(term)) || (Truthy(job.location) && Includes(fold(job.location.value), fold(term))))
  }

  /** The jobs the search keeps. */
  function MatchesTerm(term: string, fold: string -> string): Job -> bool {
    (job: Job) => SearchMatches(job, term, fold) == Ok(true)
  }

  /** `jobs.filter(searchPredicate)`: the predicate runs on every job in order, so the
      filter throws exactly when it throws for some job, and otherwise keeps the matches. */
  function SearchFilter(jobs: seq<Job>, term: string, fold: string -> string): (r: Result<seq<Job>>)
    ensures r.Thrown? <==> exists i :: 0 <= i < |jobs| && SearchMatches(jobs[i], term, fold).Thrown?
    ensures r.Ok? ==> r.value == Filter(jobs, MatchesTerm(term, fold))
  {
    if jobs == [] then Ok([])
    else
      var rest := SearchFilter(jobs[1..], term, fold);
      assert forall i :: 1 <= i < |jobs| ==> jobs[i] == jobs[1..][i - 1];
      match SearchMatches(jobs[0], term, fold)
      case Thrown(e) => Thrown(e)
      case Ok(keep) =>
        match rest
        case Thrown(e) =>
          assert exists i :: 0 <= i < |jobs[1..]| && SearchMatches(jobs[1..][i], term, fold).Thrown?;
          Thrown(e)
        case Ok(kept) => Ok((if keep then [jobs[0]] else []) + kept)
  }

  /** The status filter: "all" keeps every job, any other value keeps the jobs with
      exactly that status. */
  function StatusFilter(jobs: seq<Job>, statusFilter: string): (r: seq<Job>)
    ensures statusFilter == AllStatuses ==> r == jobs
    ensures statusFilter != AllStatuses ==> r == Filter(jobs, HasStatus(statusFilter))
  {
    if statusFilter == AllStatuses then jobs else Filter(jobs, HasStatus(statusFilter))
  }

  /** `(a, b) => new Date(b.field || 0) - new Date(a.field || 0) <= 0`: newest first. */
  function NewestApplicationFirst(): (Job, Job) -> bool {
    (a: Job, b: Job) => DateKey(b.applicationDate) <= DateKey(a.applicationDate)
  }

  /** `(a, b) => (a.title || '').localeCompare(b.title || '') <= 0`, with `localeLe(x, y)`
      meaning `x.localeCompare(y) <= 0`. */
  function ByTitle(localeLe: (string, string) -> bool): (Job, Job) -> bool {
    (a: Job, b: Job) => localeLe(OrElse(a.title, ""), OrElse(b.title, ""))
  }

  function ByCompany(localeLe: (string, string) -> bool): (Job, Job) -> bool {
    (a: Job, b: Job) => localeLe(OrElse(a.company, ""), OrElse(b.company, ""))
  }

  /** A comparator that returns 0 for every pair. */
  function Unordered(): (Job, Job) -> bool {
    (a: Job, b: Job) => true
  }

  /** The comparator the sort key selects; an unknown key compares every pair equal. */
  function Comparator(sortBy: string, localeLe: (string, string) -> bool): (le: (Job, Job) -> bool)
    ensures sortBy == SortUpdatedAt ==>
              forall a, b :: le(a, b) <==> DateKey(b.updatedAt) <= DateKey(a.updatedAt)
    ensures sortBy == SortTitle ==>
              forall a, b :: le(a, b) <==> localeLe(OrElse(a.title, ""), OrElse(b.title, ""))
    ensures sortBy == SortCompany ==>
              forall a, b :: le(a, b) <==> localeLe(OrElse(a.company, ""), OrElse(b.company, ""))
    ensures sortBy == SortApplicationDate ==>
              forall a, b :: le(a, b) <==> DateKey(b.applicationDate) <= DateKey(a.applicationDate)
    ensures sortBy !in {SortUpdatedAt, SortTitle, SortCompany, SortApplicationDate} ==> forall a, b :: le(a, b)
  {
    if sortBy == SortUpdatedAt then NewestUpdatedFirst()
    else if sortBy == SortTitle then ByTitle(localeLe)
    else if sortBy == SortCompany then ByCompany(localeLe)
    else if sortBy == SortApplicationDate then NewestApplicationFirst()
    else Unordered()
  }

  /** The search step: skipped for an empty term, otherwise the search filter. */
  function Search(jobs: seq<Job>, term: string, fold: string -> string): (r: Result<seq<Job>>)
    ensures term == "" ==> r == Ok(jobs)
    ensures r.Thrown? <==> term != "" && exists i :: 0 <= i < |jobs| && SearchMatches(jobs[i], term, fold).Thrown?
    ensures r.Ok? ==> multiset(r.value) <= multiset(jobs)
    ensures r.Ok? && term != "" ==> forall i :: 0 <= i < |r.value| ==> MatchesTerm(term, fold)(r.value[i])
    ensures r.Ok? ==> forall i :: 0 <= i < |jobs| && (term == "" || MatchesTerm(term, fold)(jobs[i])) ==> jobs[i] in r.value
  {
    if term == "" then Ok(jobs) else SearchFilter(jobs, term, fold)
  }

  /** The steps after the search: the status filter, then the sort on the copy. */
  function Arrange(found: seq<Job>, statusFilter: string, sortBy: string, localeLe: (string, string) -> bool): (r: seq<Job>)
    ensures multiset(r) <= multiset(found)
    ensures statusFilter == AllStatuses ==> multiset(r) == multiset(found)
    ensures statusFilter != AllStatuses ==> forall i :: 0 <= i < |r| ==> r[i].status == Some(statusFilter)
    ensures forall i :: 0 <= i < |found| && (statusFilter == AllStatuses || found[i].status == Some(statusFilter)) ==>
              found[i] in r
    ensures r == Sort(StatusFilter(found, statusFilter), Comparator(sortBy, localeLe))
  {
    var kept := StatusFilter(found, statusFilter);
    var sorted := Sort(kept, Comparator(sortBy, localeLe));
    assert multiset(sorted) == multiset(kept);
    assert statusFilter != AllStatuses ==> forall i :: 0 <= i < |sorted| ==> HasStatus(statusFilter)(sorted[i]) by {
      if statusFilter != AllStatuses {
        PermutationKeeps(kept, sorted, HasStatus(statusFilter));
      }
    }
    assert forall i :: 0 <= i < |found| && (statusFilter == AllStatuses || found[i].status == Some(statusFilter)) ==>
             found[i] in sorted by {
      forall i | 0 <= i < |found| && (statusFilter == AllStatuses || found[i].status == Some(statusFilter))
        ensures found[i] in sorted
      {
        assert found[i] in kept;
        assert found[i] in multiset(kept);
      }
    }
    sorted
  }

  /** Every element of a sub-multiset satisfies what every element of the whole does. */
  lemma SubMultisetKeeps(a: seq<Job>, b: seq<Job>, p: Job -> bool)
    requires multiset(b) <= multiset(a)
    requires forall i :: 0 <= i < |a| ==> p(a[i])
    ensures forall i :: 0 <= i < |b| ==> p(b[i])
  {
    forall i | 0 <= i < |b|
      ensures p(b[i])
    {
      assert b[i] in multiset(b);
      var k :| 0 <= k < |a| && a[k] == b[i];
    }
  }

  /** `filteredJobs`: the non-array coercion, then the search (skipped for an empty term),
      the status filter and the stable sort on a copy. */
  function FilteredJobs(jobs: JobsValue, term: string, statusFilter: string, sortBy: string,
                        fold: string -> string, localeLe: (string, string) -> bool): (r: Result<seq<Job>>)
    // nothing is invented or duplicated
    ensures r.Ok? ==> multiset(r.value) <= multiset(SafeJobs(jobs))
    // the search throws only for a non-empty term, on a job it cannot read
    ensures r.Thrown? <==> term != "" && exists i :: 0 <= i < |SafeJobs(jobs)| && SearchMatches(SafeJobs(jobs)[i], term, fold).Thrown?
    // every shown job passes both filters
    ensures r.Ok? && statusFilter != AllStatuses ==> forall i :: 0 <= i < |r.value| ==> r.value[i].status == Some(statusFilter)
    ensures r.Ok? && term != "" ==> forall i :: 0 <= i < |r.value| ==> MatchesTerm(term, fold)(r.value[i])
    // and every job passing both is shown
    ensures r.Ok? ==> forall i :: 0 <= i < |SafeJobs(jobs)|
                        && (term == "" || MatchesTerm(term, fold)(SafeJobs(jobs)[i]))
                        && (statusFilter == AllStatuses || SafeJobs(jobs)[i].status == Some(statusFilter))
                        ==> SafeJobs(jobs)[i] in r.value
    // with no search and "all", the view is a rearrangement of the whole collection
    ensures term == "" && statusFilter == AllStatuses ==> r.Ok? && multiset(r.value) == multiset(SafeJobs(jobs))
  {
    match Search(SafeJobs(jobs), term, fold)
    case Thrown(e) => Thrown(e)
    case Ok(found) =>
      var view := Arrange(found, statusFilter, sortBy, localeLe);
      assert term != "" ==> forall i :: 0 <= i < |view| ==> MatchesTerm(term, fold)(view[i]) by {
        if term != "" {
          SubMultisetKeeps(found, view, MatchesTerm(term, fold));
        }
      }
      ShownWhenBothPass(SafeJobs(jobs), found, view, term, fold, statusFilter);
      Ok(view)
  }

  /** A job that passes the search is in the search's output, and from there the status
      filter and the sort carry it into the view. */
  lemma ShownWhenBothPass(safe: seq<Job>, found: seq<Job>, view: seq<Job>, term: string,
                          fold: string -> string, statusFilter: string)
    requires forall i :: 0 <= i < |safe| && (term == "" || MatchesTerm(term, fold)(safe[i])) ==> safe[i] in found
    requires forall i :: 0 <= i < |found| && (statusFilter == AllStatuses || found[i].status == Some(statusFilter)) ==>
               found[i] in view
    ensures forall i :: 0 <= i < |safe|
              && (term == "" || MatchesTerm(term, fold)(safe[i]))
              && (statusFilter == AllStatuses || safe[i].status == Some(statusFilter))
              ==> safe[i] in view
  {
    forall i | 0 <= i < |safe| && (term == "" || MatchesTerm(term, fold)(safe[i]))
               && (statusFilter == AllStatuses || safe[i].status == Some(statusFilter))
      ensures safe[i] in view
    {
      var k :| 0 <= k < |found| && found[k] == safe[i];
    }
  }

  /** With a consistent comparator the view is ordered by it. */
  lemma ViewSorted(jobs: JobsValue, term: string, statusFilter: string, sortBy: string,
                   fold: string -> string, localeLe: (string, string) -> bool)
    requires TotalPreorder(Comparator(sortBy, localeLe))
    ensures var r := FilteredJobs(jobs, term, statusFilter, sortBy, fold, localeLe);
            r.Ok? ==> SortedBy(r.value, Comparator(sortBy, localeLe))
  {
    var searched := Search(SafeJobs(jobs), term, fold);
    if searched.Ok? {
      SortSorted(StatusFilter(searched.value, statusFilter), Comparator(sortBy, localeLe));
    }
  }

  lemma NewestFirstConsistent()
    ensures TotalPreorder(NewestUpdatedFirst()) && TotalPreorder(NewestApplicationFirst())
  {
  }

  lemma {:induction false} NameOrdersConsistent(localeLe: (string, string) -> bool)
    requires TotalPreorder(localeLe)
    ensures TotalPreorder(ByTitle(localeLe)) && TotalPreorder(ByCompany(localeLe))
  {
    forall a: Job, b: Job
      ensures ByTitle(localeLe)(a, b) || ByTitle(localeLe)(b, a)
      ensures ByCompany(localeLe)(a, b) || ByCompany(localeLe)(b, a)
    {
      assert localeLe(OrElse(a.title, ""), OrElse(b.title, "")) || localeLe(OrElse(b.title, ""), OrElse(a.title, ""));
      assert localeLe(OrElse(a.company, ""), OrElse(b.company, "")) || localeLe(OrElse(b.company, ""), OrElse(a.company, ""));
    }
    forall a: Job, b: Job, c: Job | ByTitle(localeLe)(a, b) && ByTitle(localeLe)(b, c)
      ensures ByTitle(localeLe)(a, c)
    {
      var x, y, z := OrElse(a.title, ""), OrElse(b.title, ""), OrElse(c.title, "");
      assert localeLe(x, y) && localeLe(y, z);
    }
    forall a: Job, b: Job, c: Job | ByCompany(localeLe)(a, b) && ByCompany(localeLe)(b, c)
      ensures ByCompany(localeLe)(a, c)
    {
      var x, y, z := OrElse(a.company, ""), OrElse(b.company, ""), OrElse(c.company, "");
      assert localeLe(x, y) && localeLe(y, z);
    }
  }

  /** Sorting by a date key lists the jobs newest first, a missing date counting as 0. */
  lemma SortedByDates(jobs: JobsValue, term: string, statusFilter: string, fold: string -> string,
                      localeLe: (string, string) -> bool)
    ensures var r := FilteredJobs(jobs, term, statusFilter, SortUpdatedAt, fold, localeLe);
            r.Ok? ==> forall i, j :: 0 <= i < j < |r.value| ==> DateKey(r.value[j].updatedAt) <= DateKey(r.value[i].updatedAt)
    ensures var r := FilteredJobs(jobs, term, statusFilter, SortApplicationDate, fold, localeLe);
            r.Ok? ==> forall i, j :: 0 <= i < j < |r.value| ==>
                        DateKey(r.value[j].applicationDate) <= DateKey(r.value[i].applicationDate)
  {
    NewestFirstConsistent();
    ViewSorted(jobs, term, statusFilter, SortUpdatedAt, fold, localeLe);
    ViewSorted(jobs, term, statusFilter, SortApplicationDate, fold, localeLe);
  }

  /** Sorting by title or company lists the jobs in the collation order, a missing value
      counting as the empty string. */
  lemma SortedByNames(jobs: JobsValue, term: string, statusFilter: string, fold: string -> string,
                      localeLe: (string, string) -> bool)
    requires TotalPreorder(localeLe)
    ensures var r := FilteredJobs(jobs, term, statusFilter, SortTitle, fold, localeLe);
            r.Ok? ==> forall i, j :: 0 <= i < j < |r.value| ==>
                        localeLe(OrElse(r.value[i].title, ""), OrElse(r.value[j].title, ""))
    ensures var r := FilteredJobs(jobs, term, statusFilter, SortCompany, fold, localeLe);
            r.Ok? ==> forall i, j :: 0 <= i < j < |r.value| ==>
                        localeLe(OrElse(r.value[i].company, ""), OrElse(r.value[j].company, ""))
  {
    NameOrdersConsistent(localeLe);
    ViewSorted(jobs, term, statusFilter, SortTitle, fold, localeLe);
    ViewSorted(jobs, term, statusFilter, SortCompany, fold, localeLe);
  }

  /** An unknown sort key keeps the jobs that pass the search and the status filter in the
      store's order, whatever the term and the status filter are. */
  lemma UnknownSortKeepsOrder(jobs: JobsValue, term: string, statusFilter: string, sortBy: string,
                              fold: string -> string, localeLe: (string, string) -> bool)
    requires sortBy !in {SortUpdatedAt, SortTitle, SortCompany, SortApplicationDate}
    ensures term == "" ==>
              FilteredJobs(jobs, term, statusFilter, sortBy, fold, localeLe) == Ok(StatusFilter(SafeJobs(jobs), statusFilter))
    ensures var r := FilteredJobs(jobs, term, statusFilter, sortBy, fold, localeLe);
            term != "" && r.Ok? ==> r.value == StatusFilter(Filter(SafeJobs(jobs), MatchesTerm(term, fold)), statusFilter)
  {
    var searched := Search(SafeJobs(jobs), term, fold);
    if searched.Ok? {
      SortAllEqual(StatusFilter(searched.value, statusFilter), Unordered());
    }
  }

  /** A job without a title breaks any non-empty search of a list that holds it. */
  lemma UntitledJobBreaksSearch(jobs: seq<Job>, k: nat, term: string, statusFilter: string, sortBy: string,
                                fold: string -> string, localeLe: (string, string) -> bool)
    requires k < |jobs| && jobs[k].title.None? && term != ""
    ensures FilteredJobs(JobArray(jobs), term, statusFilter, sortBy, fold, localeLe).Thrown?
  {
    assert SearchMatches(SafeJobs(JobArray(jobs))[k], term, fold).Thrown?;
  }
}

=== FILE: jobs.dfy ===
/** The job-application record as the server returns it, and the per-status counts
    shown on the dashboard. */
module Jobs {
  import opened Values

  /** A stored job. `_id` is the server-assigned key every lookup, update and delete
      matches on. Dates are timestamps in milliseconds. */
  datatype Job = Job(
    _id: string,
    title: Option<string>,
    company: Option<string>,
    location: Option<string>,
    status: Option<string>,
    salary: Option<string>,
    description: Option<string>,
    applicationDate: Option<int>,
    jobUrl: Option<string>,
    notes: Option<string>,
    updatedAt: Option<int>)

  /** The value held in the store's `jobs` field: an array, or some other non-array value
      a malformed payload may leave there. */
  datatype JobsValue = JobArray(items: seq<Job>) | NotArray

  /** `Array.isArray(jobs) ? jobs : []` */
  function SafeJobs(v: JobsValue): (s: seq<Job>)
    ensures v.JobArray? ==> s == v.items
    ensures v.NotArray? ==> s == []
  {
    match v
    case JobArray(items) => items
    case NotArray => []
  }

  const StatusApplied := "applied"
  const StatusInterviewing := "interviewing"
  const StatusOffered := "offered"
  const StatusRejected := "rejected"
  const StatusWithdrawn := "withdrawn"

  /** The five statuses the application knows. */
  predicate KnownStatus(status: Option<string>) {
    status == Some(StatusApplied) || status == Some(StatusInterviewing) || status == Some(StatusOffered)
    || status == Some(StatusRejected) || status == Some(StatusWithdrawn)
  }

  /** `job => job.status === status` */
  function HasStatus(status: string): Job -> bool {
    (job: Job) => job.status == Some(status)
  }

  /** `job => job._id !== id` */
  function IdIsNot(id: string): Job -> bool {
    (job: Job) => job._id != id
  }

  /** `job => job._id === id` */
  function IdIs(id: string): Job -> bool {
    (job: Job) => job._id == id
  }

  /** A date field as `new Date(value || 0)` sees it. */
  function DateKey(d: Option<int>): int {
    d.GetOr(0)
  }

  /** The comparator `(a, b) => new Date(b.updatedAt || 0) - new Date(a.updatedAt || 0)`:
      newest first. */
  function NewestUpdatedFirst(): (Job, Job) -> bool {
    (a: Job, b: Job) => DateKey(b.updatedAt) <= DateKey(a.updatedAt)
  }

  /** Statistics: the total and one count per known status. */
  datatype Counts = Counts(total: nat, applied: nat, interviewing: nat, offered: nat, rejected: nat, withdrawn: nat)

  const ZeroCounts := Counts(0, 0, 0, 0, 0, 0)
}

=== FILE: routes.dfy ===
/** The route guards: what a protected or a public page renders for the session. */
module Routes {
  import opened AuthReducer

  datatype View = LoadingPlaceholder | Redirect(to: string) | Children

  /** `ProtectedRoute` */
  function ProtectedRoute(s: AuthState): (v: View)
    ensures s.loading ==> v == LoadingPlaceholder
    ensures !s.loading && !s.isAuthenticated ==> v == Redirect("/login")
    ensures !s.loading && s.isAuthenticated ==> v == Children
  {
    if s.loading then LoadingPlaceholder
    else if !s.isAuthenticated then Redirect("/login")
    else Children
  }

  /** `PublicRoute` */
  function PublicRoute(s: AuthState): (v: View)
    ensures s.loading ==> v == LoadingPlaceholder
    ensures !s.loading && s.isAuthenticated ==> v == Redirect("/")
    ensures !s.loading && !s.isAuthenticated ==> v == Children
  {
    if s.loading then LoadingPlaceholder
    else if s.isAuthenticated then Redirect("/")
    else Children
  }

  /** Once the session is resolved, exactly one of the two guards shows its page. */
  lemma ExactlyOneGuardOpen(s: AuthState)
    requires !s.loading
    ensures (ProtectedRoute(s) == Children) != (PublicRoute(s) == Children)
  {
  }

  /** While the stored credentials are being checked, both guards wait. */
  lemma BothWaitWhileLoading(s: AuthState)
    requires s.loading
    ensures ProtectedRoute(s) == PublicRoute(s) == LoadingPlaceholder
  {
  }
}

=== FILE: seqs.dfy ===
/** `Array.prototype.filter` and `Array.prototype.sort` over immutable sequences. */
module Seqs {

  /** `s.filter(p)`: the elements of `s` satisfying `p`, in their original order. */
  function Filter<T>(s: seq<T>, p: T -> bool): (r: seq<T>)
    ensures |r| <= |s|
    ensures forall i :: 0 <= i < |r| ==> p(r[i])
    ensures forall i :: 0 <= i < |s| && p(s[i]) ==> s[i] in r
    ensures multiset(r) <= multiset(s)
  {
    if s == [] then []
    else
      assert s == [s[0]] + s[1..];
      (if p(s[0]) then [s[0]] else []) + Filter(s[1..], p)
  }

  /** The length of a filter, one head element at a time. */
  lemma FilterLengthCons<T>(s: seq<T>, p: T -> bool)
    requires s != []
    ensures |Filter(s, p)| == (if p(s[0]) then 1 else 0) + |Filter(s[1..], p)|
  {
  }

  lemma {:induction false} FilterAppend<T>(a: seq<T>, b: seq<T>, p: T -> bool)
    ensures Filter(a + b, p) == Filter(a, p) + Filter(b, p)
  {
    if a == [] {
      assert a + b == b;
    } else {
      assert (a + b)[1..] == a[1..] + b;
      FilterAppend(a[1..], b, p);
    }
  }

  /** Filtering keeps everything when every element passes. */
  lemma {:induction false} FilterKeepsAll<T>(s: seq<T>, p: T -> bool)
    requires forall i :: 0 <= i < |s| ==> p(s[i])
    ensures Filter(s, p) == s
  {
    if s != [] {
      FilterKeepsAll(s[1..], p);
    }
  }

  /** Filtering by `p` and by its negation splits `s` in two. */
  lemma {:induction false} FilterPartition<T>(s: seq<T>, p: T -> bool, q: T -> bool)
    requires forall x :: q(x) == !p(x)
    ensures |Filter(s, p)| + |Filter(s, q)| == |s|
  {
    if s != [] {
      FilterPartition(s[1..], p, q);
    }
  }

  /** Every occurrence of a passing element survives the filter. */
  lemma {:induction false} FilterMultiplicity<T>(s: seq<T>, p: T -> bool, x: T)
    ensures multiset(Filter(s, p))[x] == if p(x) then multiset(s)[x] else 0
  {
    if s != [] {
      assert s == [s[0]] + s[1..];
      FilterMultiplicity(s[1..], p, x);
    }
  }

  /** `r` is `s` with some of its elements dropped: its elements occur in `s` in the same order. */
  predicate IsSubsequence<T(==)>(r: seq<T>, s: seq<T>) {
    r == [] || (s != [] && ((r[0] == s[0] && IsSubsequence(r[1..], s[1..])) || IsSubsequence(r, s[1..])))
  }

  /** Filtering only drops elements: what it keeps stays in its original order. */
  lemma {:induction false} FilterSubsequence<T>(s: seq<T>, p: T -> bool)
    ensures IsSubsequence(Filter(s, p), s)
  {
    if s != [] {
      FilterSubsequence(s[1..], p);
      var r := Filter(s, p);
      if p(s[0]) {
        assert r[0] == s[0] && r[1..] == Filter(s[1..], p);
      } else {
        assert r == Filter(s[1..], p);
      }
    }
  }

  /** A property of every element carries over to any rearrangement. */
  lemma PermutationKeeps<T>(a: seq<T>, b: seq<T>, p: T -> bool)
    requires multiset(a) == multiset(b)
    requires forall i :: 0 <= i < |a| ==> p(a[i])
    ensures forall i :: 0 <= i < |b| ==> p(b[i])
  {
    forall i | 0 <= i < |b|
      ensures p(b[i])
    {
      assert b[i] in multiset(b);
      var k :| 0 <= k < |a| && a[k] == b[i];
    }
  }

  /** Rearranging a sequence does not change how many of its elements pass a filter. */
  lemma PermutationFilterLength<T>(a: seq<T>, b: seq<T>, p: T -> bool)
    requires multiset(a) == multiset(b)
    ensures |Filter(a, p)| == |Filter(b, p)|
  {
    forall x
      ensures multiset(Filter(a, p))[x] == multiset(Filter(b, p))[x]
    {
      FilterMultiplicity(a, p, x);
      FilterMultiplicity(b, p, x);
    }
    assert multiset(Filter(a, p)) == multiset(Filter(b, p));
  }

  /** `le` is total and transitive: the relation `cmp(a, b) <= 0` of a consistent comparator. */
  ghost predicate TotalPreorder<T(!new)>(le: (T, T) -> bool) {
    && (forall a, b :: le(a, b) || le(b, a))
    && Transitive(le)
  }

  ghost predicate Transitive<T(!new)>(le: (T, T) -> bool) {
    forall a, b, c :: le(a, b) && le(b, c) ==> le(a, c)
  }

  ghost predicate SortedBy<T>(s: seq<T>, le: (T, T) -> bool) {
    forall i, j :: 0 <= i < j < |s| ==> le(s[i], s[j])
  }

  /** Insert `x` before the first element it may precede. */
  function Insert<T>(x: T, s: seq<T>, le: (T, T) -> bool): (r: seq<T>)
    ensures |r| == |s| + 1
    ensures multiset(r) == multiset(s) + multiset{x}
  {
    if s == [] then [x]
    else if le(x, s[0]) then [x] + s
    else
      assert s == [s[0]] + s[1..];
      [s[0]] + Insert(x, s[1..], le)
  }

  /** `s.sort(cmp)` with `le(a, b)` meaning `cmp(a, b) <= 0`. The sort is stable, as
      ECMAScript requires: of two elements that compare equal, the earlier stays first. */
  function Sort<T>(s: seq<T>, le: (T, T) -> bool): (r: seq<T>)
    ensures |r| == |s|
    ensures multiset(r) == multiset(s)
  {
    if s == [] then []
    else
      assert s == [s[0]] + s[1..];
      Insert(s[0], Sort(s[1..], le), le)
  }

  /** The elements `le` ranks equal to `x`, in either direction. */
  function EquivalentTo<T>(le: (T, T) -> bool, x: T): T -> bool {
    (y: T) => le(x, y) && le(y, x)
  }

  lemma FilterSingleton<T>(y: T, p: T -> bool)
    ensures Filter([y], p) == if p(y) then [y] else []
  {
    assert [y][1..] == [];
  }

  /** Inserting `y` leaves every class of equal elements in its order: the class of `y`
      gains `y` at its front, and every other class is untouched. */
  lemma {:induction false} InsertKeepsClasses<T(!new)>(y: T, t: seq<T>, le: (T, T) -> bool, x: T)
    requires Transitive(le)
    ensures Filter(Insert(y, t, le), EquivalentTo(le, x)) == Filter([y], EquivalentTo(le, x)) + Filter(t, EquivalentTo(le, x))
  {
    var q := EquivalentTo(le, x);
    if t == [] {
      assert [y] + t == [y];
    } else if le(y, t[0]) {
      FilterAppend([y], t, q);
    } else {
      InsertKeepsClasses(y, t[1..], le, x);
      ClassMembersOrdered(y, t[0], le, x);
      InsertPastHead(y, t, le, q);
    }
  }

  /** The step of `InsertKeepsClasses` where `y` goes past the head `t[0]`, which is then
      not in the class `q` of `y`. */
  lemma InsertPastHead<T>(y: T, t: seq<T>, le: (T, T) -> bool, q: T -> bool)
    requires t != [] && !le(y, t[0])
    requires q(y) ==> !q(t[0])
    requires Filter(Insert(y, t[1..], le), q) == Filter([y], q) + Filter(t[1..], q)
    ensures Filter(Insert(y, t, le), q) == Filter([y], q) + Filter(t, q)
  {
    FilterInsertPastHead(y, t, le, q);
    FilterCons(t, q);
    FilterSingleton(y, q);
    FilterSingleton(t[0], q);
    Regroup(Filter(Insert(y, t, le), q), Filter(t, q), Filter([t[0]], q), Filter([y], q), Filter(t[1..], q),
            Filter(Insert(y, t[1..], le), q));
  }

  /** Moving `b` in front of `a` when one of the two is empty. */
  lemma Regroup<T>(whole: seq<T>, tail: seq<T>, a: seq<T>, b: seq<T>, c: seq<T>, rest: seq<T>)
    requires whole == a + rest && rest == b + c && tail == a + c
    requires a == [] || b == []
    ensures whole == b + tail
  {
    if a == [] {
      assert whole == b + c && tail == c;
    } else {
      assert whole == a + c;
    }
  }

  /** Filtering a non-empty sequence: its head, then its tail. */
  lemma FilterCons<T>(t: seq<T>, q: T -> bool)
    requires t != []
    ensures Filter(t, q) == Filter([t[0]], q) + Filter(t[1..], q)
  {
    assert t == [t[0]] + t[1..];
    FilterAppend([t[0]], t[1..], q);
  }

  /** Filtering the insertion of `y` past the head `t[0]`. */
  lemma FilterInsertPastHead<T>(y: T, t: seq<T>, le: (T, T) -> bool, q: T -> bool)
    requires t != [] && !le(y, t[0])
    ensures Filter(Insert(y, t, le), q) == Filter([t[0]], q) + Filter(Insert(y, t[1..], le), q)
  {
    var rest := Insert(y, t[1..], le);
    assert Insert(y, t, le) == [t[0]] + rest;
    FilterAppend([t[0]], rest, q);
  }

  /** Two elements of one class may precede each other. */
  lemma ClassMembersOrdered<T(!new)>(y: T, z: T, le: (T, T) -> bool, x: T)
    requires Transitive(le)
    ensures EquivalentTo(le, x)(y) && EquivalentTo(le, x)(z) ==> le(y, z)
  {
    if EquivalentTo(le, x)(y) && EquivalentTo(le, x)(z) {
      assert le(y, x) && le(x, z);
    }
  }

  /** The sort is stable: among the elements `le` ranks equal to any `x`, the sorted
      sequence keeps exactly the order they had in the input. */
  lemma {:induction false} SortStable<T(!new)>(s: seq<T>, le: (T, T) -> bool, x: T)
    requires Transitive(le)
    ensures Filter(Sort(s, le), EquivalentTo(le, x)) == Filter(s, EquivalentTo(le, x))
  {
    if s != [] {
      var q := EquivalentTo(le, x);
      SortStable(s[1..], le, x);
      InsertKeepsClasses(s[0], Sort(s[1..], le), le, x);
      FilterCons(s, q);
    }
  }

  lemma {:induction false} InsertSorted<T(!new)>(x: T, s: seq<T>, le: (T, T) -> bool)
    requires TotalPreorder(le)
    requires SortedBy(s, le)
    ensures SortedBy(Insert(x, s, le), le)
  {
    if s == [] {
    } else if le(x, s[0]) {
      var r := [x] + s;
      forall i, j | 0 <= i < j < |r| ensures le(r[i], r[j]) {
        if i == 0 && j > 1 {
          assert le(s[0], s[j - 1]);
        }
      }
    } else {
      var tail := Insert(x, s[1..], le);
      assert SortedBy(s[1..], le) by {
        forall i, j | 0 <= i < j < |s[1..]| ensures le(s[1..][i], s[1..][j]) {
          assert s[1..][i] == s[i + 1] && s[1..][j] == s[j + 1];
        }
      }
      InsertSorted(x, s[1..], le);
      forall y | y in tail ensures le(s[0], y) {
        assert y in multiset(tail);
        if y != x {
          assert y in multiset(s[1..]);
          var k :| 0 <= k < |s[1..]| && s[1..][k] == y;
          assert s[k + 1] == y;
        }
      }
      var r := [s[0]] + tail;
      forall i, j | 0 <= i < j < |r| ensures le(r[i], r[j]) {
        if i == 0 {
          assert r[j] == tail[j - 1];
        } else {
          assert r[i] == tail[i - 1] && r[j] == tail[j - 1];
        }
      }
    }
  }

  /** With a consistent comparator the sort yields an ordered permutation. */
  lemma {:induction false} SortSorted<T(!new)>(s: seq<T>, le: (T, T) -> bool)
    requires TotalPreorder(le)
    ensures SortedBy(Sort(s, le), le)
  {
    if s != [] {
      SortSorted(s[1..], le);
      InsertSorted(s[0], Sort(s[1..], le), le);
    }
  }

  /** A comparator that calls every pair equal leaves the order unchanged. */
  lemma {:induction false} SortAllEqual<T>(s: seq<T>, le: (T, T) -> bool)
    requires forall a, b :: le(a, b)
    ensures Sort(s, le) == s
  {
    if s != [] {
      SortAllEqual(s[1..], le);
      assert s == [s[0]] + s[1..];
    }
  }
}

=== FILE: text.dfy ===
/** The string operations the application uses: `trim`, `includes` and `split(sep)[0]`. */
module Text {

  /** The characters `String.prototype.trim` removes: ECMAScript WhiteSpace and
      LineTerminator code points. */
  predicate IsWhitespace(c: char) {
    || ('\t' <= c <= '\r')
    || c == ' ' || c == '\U{00A0}' || c == '\U{1680}'
    || ('\U{2000}' <= c <= '\U{200A}')
    || c == '\U{2028}' || c == '\U{2029}' || c == '\U{202F}' || c == '\U{205F}'
    || c == '\U{3000}' || c == '\U{FEFF}'
  }

  predicate AllWhitespace(s: string) {
    forall i :: 0 <= i < |s| ==> IsWhitespace(s[i])
  }

  /** No whitespace at either end. */
  predicate IsTrimmed(s: string) {
    s == "" || (!IsWhitespace(s[0]) && !IsWhitespace(s[|s| - 1]))
  }

  /** The first index at or after `i` holding a non-whitespace character, or `|s|`. */
  function SkipWhitespace(s: string, i: nat): (k: nat)
    requires i <= |s|
    ensures i <= k <= |s|
    ensures forall j :: i <= j < k ==> IsWhitespace(s[j])
    ensures k < |s| ==> !IsWhitespace(s[k])
    decreases |s| - i
  {
    if i < |s| && IsWhitespace(s[i]) then SkipWhitespace(s, i + 1) else i
  }

  /** The end of `s[lo..hi]` once trailing whitespace is dropped. */
  function SkipTrailingWhitespace(s: string, lo: nat, hi: nat): (e: nat)
    requires lo <= hi <= |s|
    ensures lo <= e <= hi
    ensures forall j :: e <= j < hi ==> IsWhitespace(s[j])
    ensures e > lo ==> !IsWhitespace(s[e - 1])
    decreases hi - lo
  {
    if lo < hi && IsWhitespace(s[hi - 1]) then SkipTrailingWhitespace(s, lo, hi - 1) else hi
  }

  /** The number of whitespace characters `trim` removes from the front of `s`. */
  function LeadingWhitespace(s: string): (n: nat)
    ensures n <= |s|
  {
    SkipWhitespace(s, 0)
  }

  /** `s.trim()`: the slice of `s` left after removing whitespace from both ends. */
  function Trim(s: string): (r: string)
    ensures IsTrimmed(r)
    ensures LeadingWhitespace(s) + |r| <= |s|
    ensures r == s[LeadingWhitespace(s)..LeadingWhitespace(s) + |r|]
    ensures forall i :: 0 <= i < LeadingWhitespace(s) ==> IsWhitespace(s[i])
    ensures forall i :: LeadingWhitespace(s) + |r| <= i < |s| ==> IsWhitespace(s[i])
    ensures r == "" <==> AllWhitespace(s)
  {
    var a := SkipWhitespace(s, 0);
    var e := SkipTrailingWhitespace(s, a, |s|);
    assert e > a ==> s[a..e][0] == s[a] && s[a..e][e - a - 1] == s[e - 1];
    s[a..e]
  }

  /** Trimming a string with no surrounding whitespace leaves it unchanged;
      in particular trimming is idempotent. */
  lemma TrimTrimmed(s: string)
    requires IsTrimmed(s)
    ensures Trim(s) == s
  {
    if s != "" {
      assert SkipWhitespace(s, 0) == 0;
      assert SkipTrailingWhitespace(s, 0, |s|) == |s|;
    }
  }

  lemma TrimIdempotent(s: string)
    ensures Trim(Trim(s)) == Trim(s)
  {
    TrimTrimmed(Trim(s));
  }

  predicate IsPrefix(p: string, s: string) {
    |p| <= |s| && s[..|p|] == p
  }

  /** `s.includes(sub)` */
  predicate Includes(s: string, sub: string)
    decreases |s|
  {
    IsPrefix(sub, s) || (s != [] && Includes(s[1..], sub))
  }

  /** `sub` occurs in `s` at offset `i`. */
  predicate OccursAt(s: string, sub: string, i: int) {
    0 <= i <= |s| - |sub| && s[i..i + |sub|] == sub
  }

  lemma {:induction false} IncludesAt(s: string, sub: string, i: int)
    requires OccursAt(s, sub, i)
    ensures Includes(s, sub)
    decreases i
  {
    if i == 0 {
      assert IsPrefix(sub, s);
    } else {
      assert s[1..][i - 1..i - 1 + |sub|] == s[i..i + |sub|];
      IncludesAt(s[1..], sub, i - 1);
    }
  }

  lemma {:induction false} IncludesOffset(s: string, sub: string) returns (i: int)
    requires Includes(s, sub)
    ensures OccursAt(s, sub, i)
    decreases |s|
  {
    if IsPrefix(sub, s) {
      i := 0;
    } else {
      var j := IncludesOffset(s[1..], sub);
      assert s[1..][j..j + |sub|] == s[j + 1..j + 1 + |sub|];
      i := j + 1;
    }
  }

  /** `includes` agrees with the existence of an occurrence offset. */
  lemma IncludesIff(s: string, sub: string)
    ensures Includes(s, sub) <==> exists i :: OccursAt(s, sub, i)
  {
    if Includes(s, sub) {
      var i := IncludesOffset(s, sub);
    }
    if exists i :: OccursAt(s, sub, i) {
      var i :| OccursAt(s, sub, i);
      IncludesAt(s, sub, i);
    }
  }

  /** A string that contains a longer string contains everything the longer one contains. */
  lemma IncludesTransitive(a: string, b: string, c: string)
    requires Includes(a, b) && Includes(b, c)
    ensures Includes(a, c)
  {
    var i := IncludesOffset(a, b);
    var j := IncludesOffset(b, c);
    forall n | 0 <= n < |c|
      ensures a[i + j + n] == c[n]
    {
      assert a[i + j + n] == b[j + n];
    }
    assert a[i + j..i + j + |c|] == c;
    IncludesAt(a, c, i + j);
  }

  /** `s.split(sep)[0]`: the part of `s` before the first `sep`, or all of `s`. */
  function BeforeFirst(s: string, sep: char): (r: string)
    ensures IsPrefix(r, s)
    ensures sep !in r
    ensures |r| < |s| ==> s[|r|] == sep
  {
    if s == [] then []
    else if s[0] == sep then []
    else [s[0]] + BeforeFirst(s[1..], sep)
  }
}

=== FILE: values.dfy ===
/** JavaScript values the application passes around, reduced to what its logic inspects:
    absent-or-present values, the errors that calls throw or reject with, the outcome of an
    awaited network call, and object spread. */
module Values {

  /** A value that may be `undefined`/`null` (None) or present (Some). */
  datatype Option<+T> = None | Some(value: T) {
    /** `x ?? default` */
    function GetOr(default: T): T {
      match this
      case Some(v) => v
      case None => default
    }
  }

  /** A possibly-absent string is truthy when present and non-empty. */
  predicate Truthy(s: Option<string>) {
    s.Some? && s.value != ""
  }

  /** `s || fallback` for a possibly-absent string. */
  function OrElse(s: Option<string>, fallback: string): (r: string)
    ensures Truthy(s) ==> r == s.value
    ensures !Truthy(s) ==> r == fallback
  {
    if Truthy(s) then s.value else fallback
  }

  /** The HTTP response attached to a failed request: its status and the `message`
      field of its JSON body, if any. */
  datatype HttpResponse = HttpResponse(status: int, bodyMessage: Option<string>)

  /** A thrown or rejected JavaScript error: `error.response`, `error.message` and the
      `error.userMessage` field that the response interceptor may attach. */
  datatype JsError = JsError(response: Option<HttpResponse>, message: string, userMessage: Option<string>)

  /** `error.response?.status` */
  function StatusOf(e: JsError): Option<int> {
    if e.response.Some? then Some(e.response.value.status) else None
  }

  /** An error raised by the client itself, with no HTTP response. */
  function ClientError(message: string): JsError {
    JsError(None, message, None)
  }

  /** Stand-in for the message of a TypeError the engine raises (reading a property of
      `undefined`, calling a method a value does not have). Its wording is engine-dependent;
      only its non-emptiness matters. */
  const TypeErrorMessage := "TypeError"

  /** The outcome of an awaited asynchronous call. */
  datatype Reply<+T> = Resolved(value: T) | Rejected(error: JsError)

  /** The outcome of a synchronous or awaited call of the application's own code:
      it returned a value, or it threw. */
  datatype Result<+T> = Ok(value: T) | Thrown(error: JsError)

  /** A JSON object: field name to (serialised) field value. */
  type Obj = map<string, string>

  /** Object spread `{ ...base, ...overlay }`; spreading `null`/`undefined` adds nothing. */
  function Spread(base: Option<Obj>, overlay: Option<Obj>): (r: Obj)
    ensures r.Keys == base.GetOr(map[]).Keys + overlay.GetOr(map[]).Keys
    ensures forall k :: k in overlay.GetOr(map[]) ==> r[k] == overlay.GetOr(map[])[k]
    ensures forall k :: k in base.GetOr(map[]) && k !in overlay.GetOr(map[]) ==> r[k] == base.GetOr(map[])[k]
  {
    base.GetOr(map[]) + overlay.GetOr(map[])
  }
}
